=== FILE: README.md ===
# Editable rows for DataTables, modelled in Dafny

This project models the row edit session of the DataTables "Editable"
extension (`jquery.dataTables.editable.js`, version 0.0.1). The extension
lets a user edit the rows of a DataTables table in place:

- a click on a body cell opens that row for editing: editable cells become
  text inputs seeded with the cell's text, the row gets the class `editing`,
  and an input gets focus;
- `editable().addRow()` prepends a blank row of inputs;
- Enter saves the editing rows back into the table's data and emits a
  `save.dataTableEditable` event with the row index and the saved object, or
  removes the rows when every input is empty;
- on DataTables' initialisation event the extension attaches itself when the
  table opts in, and refuses DataTables versions older than 1.10.1.

The model is functional. A `Table` holds:

- the column settings;
- the data store, one record per row index;
- the body rows in document order, each with its cells (rendered text or an
  input) and the index of the record it shows;
- the rows that were removed from the body but that DataTables still owns.
- whether the table sits inside a form;
- whether its header or footer holds an input of its own, such as a column
  search box. The extension's guards count every input of the table.

Each handler is a function from a table to a `Step`. A `Step` carries the next
table, the input given focus and the save event, if any. JavaScript objects
are ordered key/value sequences, since assigning a new property appends it.
The loose comparison `attr == true` is computed the way JavaScript computes
it: the attribute string is converted to a number and compared with 1.

Outside inputs are parameters:

- the verdict of form validation (`valid`);
- the key code of a key press;
- the text the user types (`Scenarios.TypeInto`);
- the host's version number.

The DataTables behaviour the extension relies on is modelled as far as the
extension observes it:

- hidden columns have no cell in the body and no cell in the header;
- `cell().data()` yields null for an undefined property;
- `row().data(d)` renders the row again from `d`;
- `draw()` drops rows DataTables does not know and puts back rows that were
  removed from the body.

Modules:

- `Js`, `JsLemmas`: JavaScript truthiness and the `== true` comparison.
- `Records`: JavaScript objects as ordered property lists.
- `Tables`: columns, cells, rows, table validity, and DataTables' rendering.
- `Materializer`: the row template, the focus choice, and the records built
  by the save handler.
- `Session`: adding a row, the click handler, the save handler, and the Enter
  key handler.
- `Scenarios`: whole sessions made of click, type and Enter.
- `HiddenColumns`: what a hidden column does to the header lookup and to the
  new-row save.
- `AutoInit`: the initialisation listener and the version gate.

Where the code and the extension's own comments disagree, the model follows
the code:

- The comment at line 241 says a row already being edited is saved before
  another row is opened. The code saves nothing. When inputs exist, it goes on
  only if they sit in a form that validates, and it leaves the other row open.
- The documentation comment at lines 44-46 shows `data-editable="true"` as a
  way to opt in. The comparison at line 353 converts `"true"` to NaN, so that
  form never opts in. `AutoInit.DataEditableTrueIgnored` states this, and
  `JsLemmas.ZeroPaddedOneIsTrue` states which values do opt in.
- The Enter handler checks for empty inputs before it looks at the form.
  Empty editing rows are removed from the body even inside an invalid form.
  DataTables still owns them, so a row DataTables knows comes back at the next
  draw, in its state before removal.

## Model

| member | source | states |
|---|---|---|
| Session.AddRow | jquery.dataTables.editable.js:272-292 | While a row is editing the table is unchanged. Otherwise exactly one row is prepended: unknown to DataTables, marked editing, one empty input per displayed column, whatever the columns' editable settings. Focus goes to its first input. The other rows and the data are untouched. |
| Session.BeginEdit | jquery.dataTables.editable.js:240-259 | With inputs present outside a validating form, nothing changes and no row is saved. Otherwise only the clicked row changes: it is marked editing and its cells become the template's cells. Focus goes to the clicked cell when its column is editable, else to the row's first input. A row unknown to DataTables is left unchanged. |
| Session.Click | jquery.dataTables.editable.js:331-346 | A click on a cell that already holds an input, or outside the body, changes nothing. A click never touches the data and never emits a save event. |
| Materializer.BuildFields | jquery.dataTables.editable.js:204-230 | Every cell of a new row, and every editable cell of an existing row, becomes an input seeded with the cell's text. Every other cell is kept as it was. A cell holds an input afterwards exactly when one of these rules put it there or it already held one. |
| Materializer.FocusTarget | jquery.dataTables.editable.js:231-239 | Focus goes to the clicked cell when its column is editable. Otherwise it goes to the first input of the row, with no input before it. There is no focus target exactly when the row has no input. |
| Materializer.NewRecord | jquery.dataTables.editable.js:158-169 | The new record's keys are exactly the columns' data properties. With distinct data properties, the keys are in column order, a hidden column's property holds null, and a visible column's property holds the input at the position equal to the column's index, counting hidden columns too. With a repeated property the last column writing it decides its value, as `Materializer.NewRecordLastWriter` states. |
| Materializer.NewRecordLastWriter | jquery.dataTables.editable.js:162-166 | With repeated data properties, a property holds the value assigned for the last column that writes it. |
| Materializer.MergeOneRow | jquery.dataTables.editable.js:170-183 | Saving one existing row always completes. Under every key the record holds the value of the last input whose column writes that key. Failing that, a key some displayed column writes holds its previous data (null if it was undefined), and any other key keeps its old value. |
| Materializer.MergeKeepsUnwritten | jquery.dataTables.editable.js:174-181 | A property that no visited cell's column writes keeps its previous value through the cell loop. |
| Materializer.MergedValueDistinct | jquery.dataTables.editable.js:174-181 | When displayed columns write distinct properties, a cell's property receives the cell's input value. If the cell holds no input, the property receives the cell's own previous data. |
| Materializer.NewRecordAligned | jquery.dataTables.editable.js:159-166 | When no column up to column i is hidden, the new-row counter for column i points at column i's own cell. |
| Materializer.EditableWithoutHidden | jquery.dataTables.editable.js:199-203 | With no hidden column, a cell is editable exactly when its column's `editable` option is truthy or its own header's `data-editable` equals `true`. |
| HiddenColumns.HeaderLookupShifted | jquery.dataTables.editable.js:199-203 | With a hidden first column, the header lookup reads the neighbouring header. A cell whose header says nothing is editable, and the cell whose header opts in is not. |
| HiddenColumns.NewRowShifted | jquery.dataTables.editable.js:159-166 | With a hidden first column, a new row's record gets the second input under the first displayed property. The last displayed property is undefined. |
| Session.FirstKnown | jquery.dataTables.editable.js:158 | The save takes the new-row path exactly when DataTables knows none of the saved rows. Otherwise it names the record of the first of them in document order. |
| Session.Save | jquery.dataTables.editable.js:142-198 | With no input in the table, or inside a form that fails validation, nothing changes. The new-row path appends exactly one record (NewRecord of the cells), leaves earlier records as they were, and emits its index. The existing-row path changes only that row's record and keeps its properties' order. It emits its index and new data when every saved row is known to DataTables, and no event when a saved row with cells is unknown to DataTables, because the cell loop throws on that row's first cell. Any completed save leaves only DataTables rows in the body, and rows showing the saved record show its rendering. |
| Session.SaveNew | jquery.dataTables.editable.js:158-196 | The new-row save appends exactly one record, `NewRecord` of the selected cells, under the next index. Earlier records are unchanged. The event carries that index and the record. Focus is cleared. Afterwards the body holds only DataTables rows, any row showing the new record shows its rendering, and no removed row is left pending. |
| Session.SaveExisting | jquery.dataTables.editable.js:170-196 | Only the edited record changes, and its properties keep their order. When every saved row is known to DataTables, the save completes and emits the record's index and new data. When a saved row with cells is unknown to DataTables, the cell loop throws on its first cell and no event is emitted. A save that does not complete leaves the body as it was and emits no event. |
| Session.UnknownRowStops | jquery.dataTables.editable.js:174-181 | When a selected row that DataTables does not know holds a cell, the cell loop never completes: looking up that cell's column index throws. |
| Session.SelectedTdsHold | jquery.dataTables.editable.js:174 | Every selected row with a cell contributes at least one cell, tagged with that row's store index (or none), to the cells the save loop visits. |
| Session.SaveOneRow | jquery.dataTables.editable.js:170-193 | Saving a single known row emits its own index, and the record holds the merged value under every key. |
| Session.SaveClosesSelection | jquery.dataTables.editable.js:186-196 | After a completed save, the only rows still editing are editing rows outside the saved selection and rows removed from the body earlier. |
| Session.EditingWithInputs | jquery.dataTables.editable.js:115-116 | The rows the Enter handler acts on are exactly the editing rows holding an input, in document order. |
| Session.Discard | jquery.dataTables.editable.js:121-124 | Removing the editing rows that hold an input keeps the data and leaves exactly the other rows in the body, in their order: the body shrinks by the number of editing rows holding an input. An editing row without any input stays. DataTables keeps each removed row it knows, appended in document order after the rows it already held, to show it again later. |
| Session.EnterCommit | jquery.dataTables.editable.js:112-130 | Any key but Enter does nothing. When every input of an editing row is empty, the rows are removed as `Session.Discard` states, focus is cleared, and nothing is saved. Otherwise, unless a form fails validation, the editing rows are saved. A save event happens only in that last case. |
| Scenarios.ClickOpens | jquery.dataTables.editable.js:240-259 | A click that passes the gate on a cell of a known row changes exactly that row: it is marked editing and holds the template's cells. |
| Scenarios.EnterSavesEdited | jquery.dataTables.editable.js:114-128 | Enter with a single editing row holding a non-empty input saves exactly that row. |
| Scenarios.OuterInputBlocksEdit | jquery.dataTables.editable.js:242-248 | A table outside any form whose header or footer holds an input never opens a row on click. |
| Scenarios.AddThenEnterRestores | jquery.dataTables.editable.js:121-124 | Adding a row and pressing Enter without typing gives back the original table, with nothing saved and no focus. |
| Scenarios.EditRoundTrip | jquery.dataTables.editable.js:170-193 | Click an editable cell, type a non-empty value, press Enter. The save event carries the row's own index and its updated record: the edited property holds the typed value, other editable cells write back their displayed text, other displayed cells keep their data, and unwritten properties keep their value. No other record changes. |
| Scenarios.NewRowRoundTrip | jquery.dataTables.editable.js:158-169 | Add a row, type into one input, press Enter. Exactly one record is appended under the next index and announced. With no hidden column and distinct properties it holds the typed value under that column's property and the empty string under every other column's property. |
| Scenarios.ClearedRowLeaves | jquery.dataTables.editable.js:121-124 | Clearing the only non-empty input of an opened row and pressing Enter saves nothing and keeps the data. The row leaves the body, the other rows keep their order, and DataTables keeps the row. |
| AutoInit.OnInit | jquery.dataTables.editable.js:350-363 | An `editable: false` option leaves the table alone, whatever else opts in. With no signal, nothing happens. Each documented signal alone constructs the extension, unless the option is `false`: the class `editable`, the class `dt-editable`, `data-editable` equal to `true`, a truthy `editable` option, or a truthy `editable` default. The construction attaches on a supported host and throws on an unsupported one. |
| AutoInit.Supported | jquery.dataTables.editable.js:63-66 | The version gate passes exactly for versions at least 1.10.1, compared part by part, with missing parts read as 0. |
| AutoInit.DataEditableTrueIgnored | jquery.dataTables.editable.js:353 | `data-editable="true"` alone does not attach the extension. |
| AutoInit.DataEditableOneAttaches | jquery.dataTables.editable.js:353 | `data-editable="1"` alone attaches the extension on a supported host. |
| JsLemmas.NoDigitNeverTrue | jquery.dataTables.editable.js:202 | An attribute value without a decimal digit never compares equal to `true`. |
| JsLemmas.ZeroPaddedOneIsTrue | jquery.dataTables.editable.js:202 | "1", "01", "001" and so on compare equal to `true`. |
| Records.Put | jquery.dataTables.editable.js:180 | Assigning a property sets it and leaves every other property unchanged. It replaces an existing key in place and appends a new key at the end. |

## Left out

- `_callUserDefinedEditHandler` (lines 260-271) calls a global function named by the table's `data-action-edit` attribute. That is a call into code outside the extension, so the model assumes tables without that attribute.
- The `dt.editable` guard, the Hungarian-notation mapping, the settings lookup and the deferred construction in the constructor (lines 68-102) are host plumbing with no effect on the session state. Only the version check is modelled.
- `data-template` header templates (line 217) insert arbitrary user HTML. Every input is the default text input.
- The `Api.register` aliases and the module loader (lines 312-328 and 368-379) are plumbing. `Session.AddRow` is the behaviour of `editable().addRow()`.
- Events are not modelled, except the save event. That leaves out the `click.dataTableEditable` trigger (line 250), which has no listener in the extension, and jQuery's `.focus()` side effects; focus is a result.
- The handlers' document-wide selectors (`table.dataTable tr.editing input`, line 115) are modelled for one table. The keypress listener registered again by each construction (line 112) is not modelled: repeated handling is not modelled.
- Session.Save: the redraw keeps the body's order and appends the rows DataTables takes back, and a new row last. DataTables' sorting, filtering, paging and "no data" row are not modelled, so the contract does not state where rows land after a draw.
- String-to-number conversion is exact. The rounding to double precision is not modelled, so strings like "1.0000000000000000001", which round to 1, are not counted as equal to `true`.
- Numbers are integers, and `mData` is a plain property name. Nested paths, functions and numeric indexes are not modelled.
- Scenarios.EditRoundTrip: it does not restate the redraw of the body. `Session.Save` states it for every save.
- Scenarios.NewRowRoundTrip: the record is spelled out only for tables without hidden columns and with distinct properties. `HiddenColumns.NewRowShifted` shows what a hidden column does.
- Scenarios.EditRoundTrip: the record is spelled out only when displayed columns write distinct properties. `Materializer.MergeOneRow` states the general case.
- Materializer.NewRecord: the order of keys is stated only for distinct data properties. With a repeated property, the key keeps its first position, which the contract does not state. `Materializer.NewRecordLastWriter` states the value.
- Tables.Render: string values are taken to be plain text. DataTables writes cell data as HTML, and `.text()` (line 224) reads it back decoded, so a value holding markup or character references (`<b>x</b>`, `a &amp; b`) comes back changed after a click and a save. `Render` returns the string unchanged, so `Session.Save`, `Session.SaveNew`, `Session.SaveExisting` and `Scenarios.EditRoundTrip` hold only for such plain values.
- Multi-row table headers are not modelled. The header is one row with one cell per displayed column.

=== FILE: autoinit.dfy ===
/**
 * Automatic attachment: the listener for DataTables' initialisation event
 * decides from the table's opt-in signals whether to construct the extension,
 * and the constructor refuses hosts older than DataTables 1.10.1.
 */
module AutoInit {
  import opened Options
  import opened Js
  import JsLemmas

  /**
   * What the listener reads: the table's classes, its `data-editable`
   * attribute, the `editable` initialisation option and the `editable`
   * DataTables default.
   */
  datatype Signals = Signals(classes: set<string>, dataEditable: Option<string>, initEditable: Value, defaultEditable: Value)

  /** At least one opt-in signal holds. */
  predicate OptsIn(s: Signals) {
    || "editable" in s.classes
    || "dt-editable" in s.classes
    || AttrEqualsTrue(s.dataEditable)
    || Truthy(s.initEditable)
    || Truthy(s.defaultEditable)
  }

  /** The minimum DataTables version, 1.10.1. */
  const Required: seq<nat> := [1, 10, 1]

  /** The i-th part of a dotted version, 0 when missing. */
  function Part(v: seq<nat>, i: nat): nat {
    if i < |v| then v[i] else 0
  }

  /**
   * DataTables' `versionCheck(req)`: the first part where the versions differ
   * decides; equal versions pass.
   */
  predicate AtLeastFrom(v: seq<nat>, req: seq<nat>, i: nat)
    decreases |req| - i
  {
    if i >= |req| then true
    else if Part(v, i) == req[i] then AtLeastFrom(v, req, i + 1)
    else Part(v, i) > req[i]
  }

  /**
   * The host library: `version` is None when it has no `versionCheck` at all,
   * else the parts of its version number.
   */
  datatype Host = Host(version: Option<seq<nat>>)

  /** The version gate, read as a comparison of major, minor and patch numbers. */
  predicate Supported(h: Host): (ok: bool)
    ensures ok <==> (
      && h.version.Some?
      && var v := h.version.value;
         || Part(v, 0) > 1
         || (Part(v, 0) == 1 && Part(v, 1) > 10)
         || (Part(v, 0) == 1 && Part(v, 1) == 10 && Part(v, 2) >= 1))
  {
    h.version.Some? && AtLeastFrom(h.version.value, Required, 0)
  }

  /** Result of the initialisation listener: nothing done, attached, or the constructor threw. */
  datatype Outcome = NotAttached | Attached | VersionError

  /**
   * The `init.dt` listener: construct the extension when some signal opts in
   * and the `editable` option is not literally `false`; the constructor throws
   * on an unsupported host.
   */
  function OnInit(s: Signals, h: Host): (o: Outcome)
    // an `editable: false` option vetoes every other signal
    ensures s.initEditable == Bool(false) ==> o == NotAttached
    // with no signal at all, nothing happens
    ensures (&& "editable" !in s.classes && "dt-editable" !in s.classes && !AttrEqualsTrue(s.dataEditable)
             && !Truthy(s.initEditable) && !Truthy(s.defaultEditable)) ==> o == NotAttached
    // each documented signal suffices on its own, and the constructor then throws on an unsupported host
    ensures "editable" in s.classes && s.initEditable != Bool(false) ==>
      o == (if Supported(h) then Attached else VersionError)
    ensures "dt-editable" in s.classes && s.initEditable != Bool(false) ==>
      o == (if Supported(h) then Attached else VersionError)
    ensures AttrEqualsTrue(s.dataEditable) && s.initEditable != Bool(false) ==>
      o == (if Supported(h) then Attached else VersionError)
    ensures Truthy(s.initEditable) ==> o == (if Supported(h) then Attached else VersionError)
    ensures Truthy(s.defaultEditable) && s.initEditable != Bool(false) ==>
      o == (if Supported(h) then Attached else VersionError)
    // the constructor runs only on an opt-in, and throws exactly on an unsupported host
    ensures o == Attached ==> Supported(h)
    ensures o == VersionError ==> !Supported(h)
    ensures o != NotAttached && !Supported(h) ==> o == VersionError
  {
    if OptsIn(s) && s.initEditable != Bool(false) then
      (if Supported(h) then Attached else VersionError)
    else NotAttached
  }

  /**
   * The attribute form shown in the extension's own documentation,
   * `data-editable="true"`, is not an opt-in signal: it compares unequal to
   * `true`.
   */
  lemma DataEditableTrueIgnored(h: Host)
    ensures OnInit(Signals({}, Some("true"), Undefined, Undefined), h) == NotAttached
  {
    var s := Signals({}, Some("true"), Undefined, Undefined);
    JsLemmas.TrueStringIsNotTrue();
    assert !AttrEqualsTrue(s.dataEditable);
    assert !OptsIn(s);
  }

  /** The numeric form `data-editable="1"` does opt in. */
  lemma DataEditableOneAttaches(h: Host)
    requires Supported(h)
    ensures OnInit(Signals({}, Some("1"), Undefined, Undefined), h) == Attached
  {
    var s := Signals({}, Some("1"), Undefined, Undefined);
    JsLemmas.ZeroPaddedOneIsTrue(0);
    assert JsLemmas.Zeros(0) + "1" == "1";
    assert AttrEqualsTrue(s.dataEditable);
    assert OptsIn(s) && s.initEditable != Bool(false);
  }
}

=== FILE: hidden.dfy ===
/**
 * What a hidden column does to the two places where the extension turns a
 * column index into a position among the displayed cells: the header lookup
 * of `_isEditable`, and the counter of the new-row save. Both are shown on the
 * table with columns `id` (hidden), `name` and `qty`, where only the header of
 * `qty` carries `data-editable="1"`.
 */
module HiddenColumns {
  import opened Options
  import opened Js
  import opened Records
  import opened Tables
  import opened Materializer
  import JsLemmas

  function Sample(): (cols: seq<Column>)
    ensures |cols| == 3
  {
    [Column("id", false, false, None), Column("name", true, false, None), Column("qty", true, false, Some("1"))]
  }

  /** The displayed cells of Sample are those of `name` and `qty`. */
  lemma SampleVisible()
    ensures VisibleColumns(Sample()) == [1, 2]
  {
    var cols := Sample();
    assert cols[..0] == [];
    assert cols[..1][..0] == [];
    assert cols[..2][..1] == cols[..1];
    assert cols[..3][..2] == cols[..2];
    assert VisibleColumns(cols[..1]) == [];
    assert VisibleColumns(cols[..2]) == [1];
    assert cols[..3] == cols;
  }

  /**
   * The header lookup uses the column index as a position among the displayed
   * header cells, so it reads the neighbour's header: the `name` cell, whose
   * header says nothing, is editable, and the `qty` cell, whose header opts
   * in, is not.
   */
  lemma HeaderLookupShifted()
    ensures Width(Sample()) == 2
    ensures FieldOf(Sample(), 0) == "name" && IsEditable(Sample(), 0)
    ensures FieldOf(Sample(), 1) == "qty" && !IsEditable(Sample(), 1)
    ensures Sample()[1].headerEditable.None? && AttrEqualsTrue(Sample()[2].headerEditable)
  {
    SampleVisible();
    JsLemmas.ZeroPaddedOneIsTrue(0);
    assert JsLemmas.Zeros(0) + "1" == "1";
  }

  /**
   * The new-row save picks the cell for column i at position i, counting the
   * hidden column: the value typed under `qty` is saved under `name`, and
   * `qty` is saved undefined.
   */
  lemma NewRowShifted(a: string, b: string)
    ensures Width(Sample()) == 2
    ensures
      var r := NewRecord(Sample(), [Field(a), Field(b)]);
      && Keys(r) == ["id", "name", "qty"]
      && Lookup(r, "id") == Null
      && Lookup(r, "name") == Str(b)
      && Lookup(r, "qty") == Undefined
  {
    SampleVisible();
    var cols := Sample();
    assert DistinctFields(cols);
    assert Fields(cols) == ["id", "name", "qty"];
    assert InputValue([Field(a), Field(b)], 1) == Str(b);
    assert InputValue([Field(a), Field(b)], 2) == Undefined;
    assert cols[1].field == "name" && cols[2].field == "qty" && cols[0].field == "id";
  }
}

=== FILE: js.dfy ===
/**
 * The slice of JavaScript value semantics the editable extension depends on:
 * truthiness of option values and the loose comparison `attr == true`,
 * which JavaScript decides by converting the attribute string to a number.
 */
module Js {
  import opened Options

  /** A JavaScript value as the extension observes it. Numbers are restricted to integers. */
  datatype Value = Undefined | Null | Bool(b: bool) | Num(n: int) | Str(s: string) | Obj

  /** JavaScript truthiness (`if (v)`). */
  predicate Truthy(v: Value) {
    match v
    case Undefined => false
    case Null => false
    case Bool(b) => b
    case Num(n) => n != 0
    case Str(s) => |s| > 0
    case Obj => true
  }

  /** White space and line terminators that JavaScript strips before converting a string to a number. */
  predicate IsSpace(c: char) {
    || c == ' ' || c == '\t' || c == '\n' || c == '\r'
    || c == '\U{B}' || c == '\U{C}' || c == '\U{A0}' || c == '\U{1680}'
    || ('\U{2000}' <= c <= '\U{200A}')
    || c == '\U{2028}' || c == '\U{2029}' || c == '\U{202F}' || c == '\U{205F}'
    || c == '\U{3000}' || c == '\U{FEFF}'
  }

  function TrimStart(s: string): (r: string)
    ensures |r| <= |s| && r == s[|s| - |r|..]
    ensures |r| > 0 ==> !IsSpace(r[0])
  {
    if |s| > 0 && IsSpace(s[0]) then TrimStart(s[1..]) else s
  }

  function TrimEnd(s: string): (r: string)
    ensures |r| <= |s| && r == s[..|r|]
    ensures |r| > 0 ==> !IsSpace(r[|r| - 1])
  {
    if |s| > 0 && IsSpace(s[|s| - 1]) then TrimEnd(s[..|s| - 1]) else s
  }

  /** The value of a digit character in bases up to 36; 36 for anything else. */
  function DigitValue(c: char): nat {
    if '0' <= c <= '9' then c as int - '0' as int
    else if 'a' <= c <= 'z' then c as int - 'a' as int + 10
    else if 'A' <= c <= 'Z' then c as int - 'A' as int + 10
    else 36
  }

  predicate IsDecimalDigit(c: char) {
    '0' <= c <= '9'
  }

  predicate AllDigits(s: string, base: nat) {
    forall i :: 0 <= i < |s| ==> DigitValue(s[i]) < base
  }

  function DigitsValue(s: string, base: nat): nat
    requires AllDigits(s, base)
  {
    if |s| == 0 then 0 else DigitsValue(s[..|s| - 1], base) * base + DigitValue(s[|s| - 1])
  }

  function Pow10(n: nat): (p: nat)
    ensures p >= 1
  {
    if n == 0 then 1 else 10 * Pow10(n - 1)
  }

  /** The first index of a character of `cs` in `s`, or |s| when there is none. */
  function IndexOfAny(s: string, cs: set<char>): (i: nat)
    ensures i <= |s|
    ensures forall j :: 0 <= j < i ==> s[j] !in cs
    ensures i < |s| ==> s[i] in cs
  {
    if |s| == 0 then 0 else if s[0] in cs then 0 else 1 + IndexOfAny(s[1..], cs)
  }

  /**
   * The result of JavaScript's string-to-number conversion, kept exact:
   * a finite result is (-1)^negative × mantissa × 10^exponent. NotFinite covers
   * NaN and the infinities, none of which equals 1.
   */
  datatype Numeral = Finite(negative: bool, mantissa: nat, exponent: int) | NotFinite

  /** An optional exponent part: a sign (optional) and at least one decimal digit. */
  function ExponentValue(e: string): Option<int> {
    if |e| > 0 && (e[0] == '+' || e[0] == '-') then
      (if |e| > 1 && AllDigits(e[1..], 10)
       then Some(if e[0] == '-' then -(DigitsValue(e[1..], 10) as int) else DigitsValue(e[1..], 10))
       else None)
    else if |e| > 0 && AllDigits(e, 10) then Some(DigitsValue(e, 10))
    else None
  }

  /** An unsigned decimal literal: digits, an optional point and digits (at least one digit in all), an optional exponent. */
  function UnsignedDecimal(u: string): Numeral {
    var e := IndexOfAny(u, {'e', 'E'});
    var mant := u[..e];
    var exp := if e < |u| then ExponentValue(u[e + 1..]) else Some(0);
    var d := IndexOfAny(mant, {'.'});
    var whole := mant[..d];
    var frac := if d < |mant| then mant[d + 1..] else "";
    if exp.Some? && AllDigits(whole, 10) && AllDigits(frac, 10) && |whole| + |frac| > 0
    then Finite(false, DigitsValue(whole + frac, 10), exp.value - |frac|)
    else NotFinite
  }

  /** A `0x`, `0o` or `0b` literal with at least one digit of its base. */
  function RadixLiteral(t: string): Option<nat> {
    if |t| > 2 && t[0] == '0' then
      var base := if t[1] in {'x', 'X'} then 16 else if t[1] in {'o', 'O'} then 8 else if t[1] in {'b', 'B'} then 2 else 0;
      if base > 0 && AllDigits(t[2..], base) then Some(DigitsValue(t[2..], base)) else None
    else None
  }

  /** JavaScript's ToNumber applied to a string. */
  function ToNumeral(s: string): Numeral {
    ConvertTrimmed(TrimEnd(TrimStart(s)))
  }

  /** ToNumber of a string that has no surrounding white space. */
  function ConvertTrimmed(t: string): Numeral {
    if |t| == 0 then Finite(false, 0, 0)
    else if RadixLiteral(t).Some? then Finite(false, RadixLiteral(t).value, 0)
    else if t[0] == '-' then
      (match UnsignedDecimal(t[1..])
       case Finite(_, m, x) => Finite(true, m, x)
       case NotFinite => NotFinite)
    else if t[0] == '+' then UnsignedDecimal(t[1..])
    else UnsignedDecimal(t)
  }

  predicate IsOne(n: Numeral) {
    && n.Finite?
    && !n.negative
    && if n.exponent >= 0 then n.mantissa * Pow10(n.exponent) == 1 else n.mantissa == Pow10(-n.exponent)
  }

  /**
   * `attr == true` for an attribute read with jQuery's `.attr()`: an absent
   * attribute is `undefined`, which is not loosely equal to `true`; a present one
   * is a string, compared by converting both sides to numbers (`true` becomes 1).
   */
  predicate AttrEqualsTrue(attr: Option<string>) {
    attr.Some? && IsOne(ToNumeral(attr.value))
  }
}

/** Facts about the loose comparison of an attribute string with `true`. */
module JsLemmas {
  import opened Options
  import opened Js

  lemma AllDecimalDigits(s: string)
    requires AllDigits(s, 10)
    ensures forall i :: 0 <= i < |s| ==> IsDecimalDigit(s[i])
  {
  }

  /** A successful decimal conversion always consumed at least one decimal digit of its input. */
  lemma {:induction false} UnsignedDecimalHasDigit(u: string)
    requires UnsignedDecimal(u).Finite?
    ensures exists i :: 0 <= i < |u| && IsDecimalDigit(u[i])
  {
    var e := IndexOfAny(u, {'e', 'E'});
    var mant := u[..e];
    var d := IndexOfAny(mant, {'.'});
    var whole := mant[..d];
    var frac := if d < |mant| then mant[d + 1..] else "";
    assert AllDigits(whole, 10) && AllDigits(frac, 10) && |whole| + |frac| > 0;
    if |whole| > 0 {
      AllDecimalDigits(whole);
      assert u[0] == whole[0];
    } else {
      AllDecimalDigits(frac);
      assert u[d + 1] == frac[0];
    }
  }

  /**
   * An attribute value without any decimal digit never compares equal to `true`:
   * in particular `data-editable="true"` does not switch editing on.
   */
  lemma {:induction false} ConvertedOneHasDigit(t: string)
    requires IsOne(ConvertTrimmed(t))
    ensures exists i :: 0 <= i < |t| && IsDecimalDigit(t[i])
  {
    if |t| == 0 {
    } else if RadixLiteral(t).Some? {
      assert IsDecimalDigit(t[0]);
    } else if t[0] == '-' {
    } else if t[0] == '+' {
      UnsignedDecimalHasDigit(t[1..]);
      var i :| 0 <= i < |t[1..]| && IsDecimalDigit(t[1..][i]);
      assert t[1..][i] == t[i + 1];
    } else {
      UnsignedDecimalHasDigit(t);
    }
  }

  /**
   * An attribute value without any decimal digit never compares equal to `true`:
   * in particular `data-editable="true"` does not switch editing on.
   */
  lemma {:induction false} NoDigitNeverTrue(s: string)
    requires forall i :: 0 <= i < |s| ==> !IsDecimalDigit(s[i])
    ensures !AttrEqualsTrue(Some(s))
  {
    var t0 := TrimStart(s);
    var t := TrimEnd(t0);
    if IsOne(ConvertTrimmed(t)) {
      ConvertedOneHasDigit(t);
    }
  }

  lemma TrueStringIsNotTrue()
    ensures !AttrEqualsTrue(Some("true"))
  {
    var s := "true";
    assert forall i :: 0 <= i < |s| ==> !IsDecimalDigit(s[i]) by {
      assert s == ['t', 'r', 'u', 'e'];
    }
    NoDigitNeverTrue(s);
  }

  function Zeros(n: nat): (z: string)
    ensures |z| == n && forall i :: 0 <= i < n ==> z[i] == '0'
  {
    seq(n, i => '0')
  }

  lemma {:induction false} ZerosValue(n: nat)
    ensures AllDigits(Zeros(n), 10) && DigitsValue(Zeros(n), 10) == 0
  {
    if n > 0 {
      ZerosValue(n - 1);
      assert Zeros(n)[..n - 1] == Zeros(n - 1);
      assert DigitValue(Zeros(n)[n - 1]) == 0;
    }
  }

  /** A plain run of decimal digits converts to its decimal value. */
  lemma {:induction false} DigitRunValue(ds: string)
    requires |ds| > 0 && AllDigits(ds, 10)
    ensures ToNumeral(ds) == Finite(false, DigitsValue(ds, 10), 0)
  {
    DigitRunTrimmed(ds);
    DigitRunUnsigned(ds);
    DigitRunDecimal(ds);
  }

  /** Trimming leaves a run of decimal digits as it is. */
  lemma DigitRunTrimmed(ds: string)
    requires |ds| > 0 && AllDigits(ds, 10)
    ensures ToNumeral(ds) == ConvertTrimmed(ds)
  {
    AllDecimalDigits(ds);
    assert !IsSpace(ds[0]);
    assert TrimStart(ds) == ds;
    assert !IsSpace(ds[|ds| - 1]);
    assert TrimEnd(ds) == ds;
  }

  /** A run of decimal digits has neither sign nor radix prefix, so it is read as an unsigned decimal literal. */
  lemma DigitRunUnsigned(ds: string)
    requires |ds| > 0 && AllDigits(ds, 10)
    ensures ConvertTrimmed(ds) == UnsignedDecimal(ds)
  {
    AllDecimalDigits(ds);
    if |ds| > 2 {
      assert IsDecimalDigit(ds[1]);
    }
    assert RadixLiteral(ds).None?;
    assert ds[0] != '-' && ds[0] != '+' by {
      assert IsDecimalDigit(ds[0]);
    }
  }

  /** A run of decimal digits is a decimal literal with neither point nor exponent. */
  lemma DigitRunDecimal(ds: string)
    requires |ds| > 0 && AllDigits(ds, 10)
    ensures UnsignedDecimal(ds) == Finite(false, DigitsValue(ds, 10), 0)
  {
    AllDecimalDigits(ds);
    var e := IndexOfAny(ds, {'e', 'E'});
    assert e == |ds|;
    assert ds[..e] == ds;
    var d := IndexOfAny(ds, {'.'});
    assert d == |ds|;
    assert ds[..d] + "" == ds;
  }

  /** "1", "01", "001", ... all compare equal to `true`. */
  lemma {:induction false} ZeroPaddedOneIsTrue(n: nat)
    ensures AttrEqualsTrue(Some(Zeros(n) + "1"))
  {
    var s := Zeros(n) + "1";
    ZerosValue(n);
    assert s[..n] == Zeros(n);
    assert AllDigits(s, 10);
    assert DigitsValue(s, 10) == 1;
    DigitRunValue(s);
  }
}

=== FILE: materializer.dfy ===
/**
 * The row template and the reading of edited rows back into records:
 * which cells become inputs and what they are seeded with, where focus goes,
 * the record built for a new row, and the merge of an edited row into its
 * stored record.
 */
module Materializer {
  import opened Options
  import opened Js
  import opened Records
  import opened Tables

  /** A cell position in the table body. */
  datatype Pos = Pos(row: nat, cell: nat)

  /** What the template makes of the k-th cell. */
  function Template(cols: seq<Column>, k: nat, c: Cell, isNew: bool): Cell
    requires k < Width(cols)
  {
    if isNew || IsEditable(cols, k) then Field(TextOf(c)) else c
  }

  /**
   * The row template: every cell of a new row, and every editable cell of an
   * existing row, is replaced by an input seeded with the cell's text; other
   * cells are left as they are.
   */
  function BuildFields(cols: seq<Column>, cells: seq<Cell>, isNew: bool): (out: seq<Cell>)
    requires |cells| <= Width(cols)
    ensures |out| == |cells|
    ensures forall k :: 0 <= k < |cells| ==> (out[k].Field? <==> isNew || IsEditable(cols, k) || cells[k].Field?)
    ensures forall k :: 0 <= k < |cells| && (isNew || IsEditable(cols, k)) ==> out[k] == Field(TextOf(cells[k]))
    ensures forall k :: 0 <= k < |cells| && !isNew && !IsEditable(cols, k) ==> out[k] == cells[k]
  {
    seq(|cells|, k requires 0 <= k < |cells| => Template(cols, k, cells[k], isNew))
  }

  /** The first cell of a row holding an input, if any: the fallback focus target at line 237. */
  function FirstInput(cells: seq<Cell>): (j: Option<nat>)
    ensures j.Some? ==> j.value < |cells| && cells[j.value].Field?
    ensures j.Some? ==> forall i :: 0 <= i < j.value ==> !cells[i].Field?
    ensures j.None? ==> forall i :: 0 <= i < |cells| ==> !cells[i].Field?
  {
    if |cells| == 0 then None
    else if cells[0].Field? then Some(0)
    else match FirstInput(cells[1..])
      case None => None
      case Some(j) => Some(j + 1)
  }

  /**
   * Where focus goes in the row at `row` whose cells are `cells`: to the
   * clicked cell when one was given and its column is editable, otherwise to
   * the first input of the row; None when there is no input to focus.
   */
  function FocusTarget(cols: seq<Column>, row: nat, cells: seq<Cell>, clicked: Option<nat>): (f: Option<Pos>)
    requires |cells| == Width(cols)
    requires clicked.Some? ==> clicked.value < |cells|
    ensures clicked.Some? && IsEditable(cols, clicked.value) ==> f == Some(Pos(row, clicked.value))
    ensures !(clicked.Some? && IsEditable(cols, clicked.value)) ==>
      && (f.None? <==> forall i :: 0 <= i < |cells| ==> !cells[i].Field?)
      && (f.Some? ==> f.value.row == row && f.value.cell < |cells| && cells[f.value.cell].Field?)
      && (f.Some? ==> forall i :: 0 <= i < f.value.cell ==> !cells[i].Field?)
  {
    if clicked.Some? && IsEditable(cols, clicked.value) then Some(Pos(row, clicked.value))
    else match FirstInput(cells)
      case None => None
      case Some(j) => Some(Pos(row, j))
  }

  /**
   * The value the new-row save reads from the i-th cell (line 163): the input's
   * value, or undefined when there is no i-th cell or it holds no input.
   */
  function InputValue(cells: seq<Cell>, i: nat): Value {
    if i < |cells| && cells[i].Field? then Str(cells[i].value) else Undefined
  }

  /** The data properties of the columns, in column order. */
  function Fields(cols: seq<Column>): seq<string> {
    seq(|cols|, i requires 0 <= i < |cols| => cols[i].field)
  }

  predicate DistinctFields(cols: seq<Column>) {
    forall i, j :: 0 <= i < j < |cols| ==> cols[i].field != cols[j].field
  }

  /** What the new-row save assigns for column i (line 163): null for a hidden column, else the value of the cell at position i. */
  function ColumnValue(cols: seq<Column>, cells: seq<Cell>, i: nat): Value
    requires i < |cols|
  {
    if cols[i].visible then InputValue(cells, i) else Null
  }

  /**
   * The record saved for a new row: the columns' properties assigned in column
   * order. A hidden column gets null; a visible column gets the input of the
   * cell at the position equal to the column's index, since the counter that
   * picks the cell advances for hidden columns as well. A property written by
   * several columns keeps its first position and the last column's value.
   */
  function NewRecord(cols: seq<Column>, cells: seq<Cell>): (r: Record)
    ensures forall key :: key in Keys(r) <==> key in Fields(cols)
    ensures DistinctFields(cols) ==> Keys(r) == Fields(cols)
    ensures DistinctFields(cols) ==> forall i :: 0 <= i < |cols| ==>
      Lookup(r, cols[i].field) == ColumnValue(cols, cells, i)
  {
    if |cols| == 0 then []
    else
      var n := |cols| - 1;
      var prefix := NewRecord(cols[..n], cells);
      assert Fields(cols) == Fields(cols[..n]) + [cols[n].field];
      assert DistinctFields(cols) ==> DistinctFields(cols[..n]) && cols[n].field !in Fields(cols[..n]);
      Put(prefix, cols[n].field, ColumnValue(cols, cells, n))
  }

  /**
   * Whatever the columns, a property holds the value assigned for the last
   * column that writes it: later assignments to the same property overwrite
   * earlier ones.
   */
  lemma {:induction false} NewRecordLastWriter(cols: seq<Column>, cells: seq<Cell>, i: nat)
    requires i < |cols|
    requires forall j :: i < j < |cols| ==> cols[j].field != cols[i].field
    ensures Lookup(NewRecord(cols, cells), cols[i].field) == ColumnValue(cols, cells, i)
  {
    var n := |cols| - 1;
    assert NewRecord(cols, cells) == Put(NewRecord(cols[..n], cells), cols[n].field, ColumnValue(cols, cells, n));
    if i < n {
      NewRecordLastWriter(cols[..n], cells, i);
      assert cols[..n][i] == cols[i];
      assert ColumnValue(cols[..n], cells, i) == ColumnValue(cols, cells, i);
    }
  }

  /** A body cell as the save handler visits it: its row's store index, its position in the row, its content. */
  datatype Td = Td(source: Option<nat>, pos: nat, cell: Cell)

  /** The cells of one row, in the order the save loop at line 174 visits them. */
  function RowTds(source: Option<nat>, cells: seq<Cell>): (tds: seq<Td>)
    ensures |tds| == |cells|
    ensures forall k :: 0 <= k < |cells| ==> tds[k] == Td(source, k, cells[k])
  {
    seq(|cells|, k requires 0 <= k < |cells| => Td(source, k, cells[k]))
  }

  predicate TdsFit(cols: seq<Column>, store: seq<Record>, tds: seq<Td>) {
    forall j :: 0 <= j < |tds| ==> tds[j].pos < Width(cols) && (tds[j].source.Some? ==> tds[j].source.value < |store|)
  }

  /**
   * The loop of the save handler over the cells of the saved rows, writing
   * into the record `base` of the row at store index `i0`. Each cell writes,
   * under its column's data property, its input's value or else the cell's own
   * data (read from `base` as updated so far when the cell belongs to row `i0`).
   * A cell of a row DataTables does not know stops the handler with a
   * TypeError (second component false); what was written until then stays
   * written, as the record is the stored object itself.
   */
  function Merge(cols: seq<Column>, store: seq<Record>, i0: nat, base: Record, tds: seq<Td>): (res: (Record, bool))
    requires TdsFit(cols, store, tds)
    ensures res.1 <==> forall j :: 0 <= j < |tds| ==> tds[j].source.Some?
    ensures Keys(base) <= Keys(res.0)
  {
    if |tds| == 0 then (base, true)
    else
      var n := |tds| - 1;
      var (acc, ok) := Merge(cols, store, i0, base, tds[..n]);
      if !ok then (acc, false)
      else match tds[n].source
        case None => (acc, false)
        case Some(s) =>
          var field := FieldOf(cols, tds[n].pos);
          var v := if tds[n].cell.Field? then Str(tds[n].cell.value)
                   else CellData(if s == i0 then acc else store[s], field);
          (Put(acc, field, v), true)
  }

  /** Whether some cell among the first n writes `key`. */
  predicate Writes(cols: seq<Column>, n: nat, key: string)
    requires n <= Width(cols)
  {
    exists k :: 0 <= k < n && FieldOf(cols, k) == key
  }

  /** A property that no visited cell's column writes keeps its value. */
  lemma {:induction false} MergeKeepsUnwritten(cols: seq<Column>, store: seq<Record>, i0: nat, base: Record, tds: seq<Td>, key: string)
    requires TdsFit(cols, store, tds)
    requires forall j :: 0 <= j < |tds| ==> FieldOf(cols, tds[j].pos) != key
    ensures Lookup(Merge(cols, store, i0, base, tds).0, key) == Lookup(base, key)
  {
    if |tds| > 0 {
      var n := |tds| - 1;
      assert forall j :: 0 <= j < n ==> tds[..n][j] == tds[j];
      MergeKeepsUnwritten(cols, store, i0, base, tds[..n], key);
    }
  }

  /** The last cell holding an input whose column writes `key`. */
  function LastInputFor(cols: seq<Column>, cells: seq<Cell>, key: string): (k: Option<nat>)
    requires |cells| <= Width(cols)
    ensures k.Some? ==> k.value < |cells| && cells[k.value].Field? && FieldOf(cols, k.value) == key
    ensures k.Some? ==> forall j :: k.value < j < |cells| && FieldOf(cols, j) == key ==> !cells[j].Field?
    ensures k.None? ==> forall j :: 0 <= j < |cells| && FieldOf(cols, j) == key ==> !cells[j].Field?
  {
    if |cells| == 0 then None
    else
      var n := |cells| - 1;
      if cells[n].Field? && FieldOf(cols, n) == key then Some(n) else LastInputFor(cols, cells[..n], key)
  }

  /**
   * What an edited existing row holds under `key` after saving: the last input
   * written under it; else, if some displayed column writes it, the previous
   * data (null when it was undefined); else the previous value untouched.
   */
  function MergedValue(cols: seq<Column>, prev: Record, cells: seq<Cell>, key: string): Value
    requires |cells| <= Width(cols)
  {
    match LastInputFor(cols, cells, key)
    case Some(k) => Str(cells[k].value)
    case None => if Writes(cols, |cells|, key) then CellData(prev, key) else Lookup(prev, key)
  }

  /**
   * Saving one existing row completes and leaves, under every key, exactly
   * MergedValue: inputs overwrite, other displayed cells keep their data, and
   * properties of hidden columns (and any other property) keep their value.
   */
  lemma {:induction false} MergeOneRow(cols: seq<Column>, store: seq<Record>, i0: nat, cells: seq<Cell>)
    requires i0 < |store| && |cells| <= Width(cols)
    ensures TdsFit(cols, store, RowTds(Some(i0), cells))
    ensures Merge(cols, store, i0, store[i0], RowTds(Some(i0), cells)).1
    ensures forall key :: (Lookup(Merge(cols, store, i0, store[i0], RowTds(Some(i0), cells)).0, key) ==
      MergedValue(cols, store[i0], cells, key))
  {
    var tds := RowTds(Some(i0), cells);
    if |cells| > 0 {
      var n := |cells| - 1;
      MergeOneRow(cols, store, i0, cells[..n]);
      assert tds[..n] == RowTds(Some(i0), cells[..n]);
      var acc := Merge(cols, store, i0, store[i0], tds[..n]).0;
      var field := FieldOf(cols, n);
      var v := if cells[n].Field? then Str(cells[n].value) else CellData(acc, field);
      assert Merge(cols, store, i0, store[i0], tds) == (Put(acc, field, v), true);
      forall key
        ensures Lookup(Put(acc, field, v), key) == MergedValue(cols, store[i0], cells, key)
      {
        MergeStepKey(cols, store[i0], cells, acc, key);
      }
    }
  }

  /** One more cell of the loop keeps every key at its MergedValue. */
  lemma MergeStepKey(cols: seq<Column>, prev: Record, cells: seq<Cell>, acc: Record, key: string)
    requires 0 < |cells| <= Width(cols)
    requires Lookup(acc, key) == MergedValue(cols, prev, cells[..|cells| - 1], key)
    ensures
      var n := |cells| - 1;
      var field := FieldOf(cols, n);
      var v := if cells[n].Field? then Str(cells[n].value) else CellData(acc, field);
      Lookup(Put(acc, field, v), key) == MergedValue(cols, prev, cells, key)
  {
    if FieldOf(cols, |cells| - 1) == key {
      MergeStepWritten(cols, prev, cells, acc, key);
    } else {
      MergeStepOther(cols, prev, cells, acc, key);
    }
  }

  /** The step of MergeStepKey for the key the last cell writes. */
  lemma MergeStepWritten(cols: seq<Column>, prev: Record, cells: seq<Cell>, acc: Record, key: string)
    requires 0 < |cells| <= Width(cols) && FieldOf(cols, |cells| - 1) == key
    requires Lookup(acc, key) == MergedValue(cols, prev, cells[..|cells| - 1], key)
    ensures
      var n := |cells| - 1;
      var v := if cells[n].Field? then Str(cells[n].value) else CellData(acc, key);
      Lookup(Put(acc, key, v), key) == MergedValue(cols, prev, cells, key)
  {
    var n := |cells| - 1;
    assert Writes(cols, |cells|, key);
    if !cells[n].Field? {
      assert LastInputFor(cols, cells, key) == LastInputFor(cols, cells[..n], key);
      assert Writes(cols, n, key) ==> Writes(cols, |cells|, key);
    }
  }

  /** The step of MergeStepKey for a key the last cell does not write. */
  lemma MergeStepOther(cols: seq<Column>, prev: Record, cells: seq<Cell>, acc: Record, key: string)
    requires 0 < |cells| <= Width(cols) && FieldOf(cols, |cells| - 1) != key
    requires Lookup(acc, key) == MergedValue(cols, prev, cells[..|cells| - 1], key)
    ensures
      var n := |cells| - 1;
      var field := FieldOf(cols, n);
      var v := if cells[n].Field? then Str(cells[n].value) else CellData(acc, field);
      Lookup(Put(acc, field, v), key) == MergedValue(cols, prev, cells, key)
  {
    var n := |cells| - 1;
    assert LastInputFor(cols, cells, key) == LastInputFor(cols, cells[..n], key);
    assert Writes(cols, n, key) <==> Writes(cols, |cells|, key);
  }

  /** With no hidden column up to column i, the counter of the new-row save reads column i's own cell. */
  lemma {:induction false} NewRecordAligned(cols: seq<Column>, i: nat)
    requires i < |cols|
    requires forall j :: 0 <= j <= i ==> cols[j].visible
    ensures i < Width(cols) && ColumnOf(cols, i) == i
  {
    var n := |cols| - 1;
    if i == n {
      AllVisible(cols);
    } else {
      NewRecordAligned(cols[..n], i);
      var vis := VisibleColumns(cols[..n]);
      assert VisibleColumns(cols) == vis || VisibleColumns(cols) == vis + [n];
      assert VisibleColumns(cols)[i] == vis[i];
    }
  }

  lemma {:induction false} AllVisible(cols: seq<Column>)
    requires forall j :: 0 <= j < |cols| ==> cols[j].visible
    ensures |VisibleColumns(cols)| == |cols|
    ensures forall j :: 0 <= j < |cols| ==> VisibleColumns(cols)[j] == j
  {
    if |cols| > 0 {
      AllVisible(cols[..|cols| - 1]);
    }
  }

  /** No two displayed columns write the same data property. */
  predicate DistinctVisibleFields(cols: seq<Column>) {
    forall a, b :: 0 <= a < b < Width(cols) ==> FieldOf(cols, a) != FieldOf(cols, b)
  }

  /**
   * When displayed columns write distinct properties, the k-th cell's property
   * ends up with the cell's input value, or else with its previous data.
   */
  lemma MergedValueDistinct(cols: seq<Column>, prev: Record, cells: seq<Cell>, k: nat)
    requires |cells| <= Width(cols) && k < |cells|
    requires DistinctVisibleFields(cols)
    ensures MergedValue(cols, prev, cells, FieldOf(cols, k)) ==
      if cells[k].Field? then Str(cells[k].value) else CellData(prev, FieldOf(cols, k))
  {
    var key := FieldOf(cols, k);
    assert Writes(cols, |cells|, key);
    match LastInputFor(cols, cells, key)
    case Some(j) =>
      assert j == k;
    case None =>
  }

  /**
   * With no hidden column, a cell is editable exactly when its own column says
   * so, through the `editable` option or its header's `data-editable`.
   */
  lemma {:induction false} EditableWithoutHidden(cols: seq<Column>, k: nat)
    requires forall j :: 0 <= j < |cols| ==> cols[j].visible
    requires k < |cols|
    ensures k < Width(cols)
    ensures IsEditable(cols, k) <==> cols[k].editable || AttrEqualsTrue(cols[k].headerEditable)
  {
    AllVisible(cols);
  }
}

=== FILE: options.dfy ===
/** The usual optional value, standing in for JavaScript's `undefined`/absent results. */
module Options {

  datatype Option<+T> = None | Some(value: T)
}

=== FILE: records.dfy ===
/**
 * A row's data object. JavaScript objects keep their (non-index) property
 * names in insertion order, so a record is a sequence of key/value pairs:
 * assigning an existing key replaces its value in place, assigning a new key
 * appends it.
 */
module Records {
  import opened Js

  type Record = seq<(string, Value)>

  function Keys(r: Record): seq<string> {
    seq(|r|, i requires 0 <= i < |r| => r[i].0)
  }

  /** Property read `r[k]`; `undefined` when the key is absent. */
  function Lookup(r: Record, k: string): Value {
    if |r| == 0 then Undefined
    else if r[0].0 == k then r[0].1
    else Lookup(r[1..], k)
  }

  /** Property assignment `r[k] = v`. */
  function Put(r: Record, k: string, v: Value): (r': Record)
    ensures Lookup(r', k) == v
    ensures forall k' :: k' != k ==> Lookup(r', k') == Lookup(r, k')
    ensures k in Keys(r) ==> Keys(r') == Keys(r)
    ensures k !in Keys(r) ==> Keys(r') == Keys(r) + [k]
  {
    if |r| == 0 then [(k, v)]
    else if r[0].0 == k then
      assert Keys(r)[0] == k;
      assert Keys([(k, v)] + r[1..]) == Keys(r);
      [(k, v)] + r[1..]
    else
      var rest := Put(r[1..], k, v);
      assert Keys(r) == [r[0].0] + Keys(r[1..]);
      assert Keys([r[0]] + rest) == [r[0].0] + Keys(rest);
      [r[0]] + rest
  }
}

=== FILE: scenarios.dfy ===
/**
 * Whole edit sessions composed from the transitions of Session: a click that
 * opens a row, the user's typing, and the Enter key that commits or discards.
 */
module Scenarios {
  import opened Options
  import opened Js
  import opened Records
  import opened Tables
  import opened Materializer
  import opened Session

  /** The user typing `v` into the input at `p`: the input's value becomes `v`. */
  function TypeInto(t: Table, p: Pos, v: string): (t': Table)
    requires Valid(t) && p.row < |t.rows| && p.cell < |t.rows[p.row].cells| && t.rows[p.row].cells[p.cell].Field?
    ensures Valid(t')
    ensures t' == t.(rows := t'.rows) && |t'.rows| == |t.rows|
    ensures forall i :: 0 <= i < |t.rows| && i != p.row ==> t'.rows[i] == t.rows[i]
    ensures t'.rows[p.row].source == t.rows[p.row].source && t'.rows[p.row].editing == t.rows[p.row].editing
    ensures t'.rows[p.row].cells == t.rows[p.row].cells[p.cell := Field(v)]
  {
    var r := t.rows[p.row];
    var r' := r.(cells := r.cells[p.cell := Field(v)]);
    assert RowFits(t, r);
    ReplaceRowValid(t, p.row, r');
    t.(rows := t.rows[p.row := r'])
  }

  lemma {:induction false} FilterKeepsAll(rows: seq<Row>, keep: Row -> bool)
    requires forall j :: 0 <= j < |rows| ==> keep(rows[j])
    ensures Filter(rows, keep) == rows
  {
    if |rows| > 0 {
      var n := |rows| - 1;
      FilterKeepsAll(rows[..n], keep);
      assert Filter(rows, keep) == Filter(rows[..n], keep) + [rows[n]];
      assert rows[..n] + [rows[n]] == rows;
    }
  }

  lemma {:induction false} FilterKeepsNone(rows: seq<Row>, keep: Row -> bool)
    requires forall j :: 0 <= j < |rows| ==> !keep(rows[j])
    ensures Filter(rows, keep) == []
  {
    if |rows| > 0 {
      FilterKeepsNone(rows[..|rows| - 1], keep);
    }
  }

  /** Filtering out exactly the i-th row keeps all the others, in order. */
  lemma {:induction false} FilterDropsOne(rows: seq<Row>, keep: Row -> bool, i: nat)
    requires i < |rows| && !keep(rows[i])
    requires forall j :: 0 <= j < |rows| && j != i ==> keep(rows[j])
    ensures Filter(rows, keep) == rows[..i] + rows[i + 1..]
  {
    var n := |rows| - 1;
    var front := rows[..n];
    if i == n {
      FilterKeepsAll(front, keep);
      assert rows[i + 1..] == [];
    } else {
      FilterDropsOne(front, keep, i);
      assert front[i + 1..] + [rows[n]] == rows[i + 1..];
      assert front[..i] + front[i + 1..] + [rows[n]] == rows[..i] + rows[i + 1..];
    }
  }

  /** Filtering when only the i-th row may be kept. */
  lemma {:induction false} FilterKeepsOne(rows: seq<Row>, keep: Row -> bool, i: nat)
    requires i < |rows|
    requires forall j :: 0 <= j < |rows| && j != i ==> !keep(rows[j])
    ensures Filter(rows, keep) == if keep(rows[i]) then [rows[i]] else []
  {
    var n := |rows| - 1;
    if i == n {
      FilterKeepsNone(rows[..n], keep);
    } else {
      FilterKeepsOne(rows[..n], keep, i);
    }
  }

  /** The Enter key acts on exactly one row when only that row is editing with inputs. */
  lemma {:induction false} SingleClosing(rows: seq<Row>, r: nat)
    requires r < |rows| && Closing(rows[r])
    requires forall i :: 0 <= i < |rows| && i != r ==> !Closing(rows[i])
    ensures EditingWithInputs(rows) == [r]
  {
    var n := |rows| - 1;
    if n == r {
      NoneClosing(rows[..n]);
    } else {
      SingleClosing(rows[..n], r);
    }
  }

  lemma {:induction false} NoneClosing(rows: seq<Row>)
    requires forall i :: 0 <= i < |rows| ==> !Closing(rows[i])
    ensures EditingWithInputs(rows) == []
  {
    if |rows| > 0 {
      NoneClosing(rows[..|rows| - 1]);
    }
  }

  /** A click on a displayed cell, once the gate lets it through, opens exactly that row. */
  lemma ClickOpens(t: Table, p: Pos, valid: bool)
    requires Valid(t) && IsClickTarget(t, p) && t.rows[p.row].source.Some? && EditAllowed(t, valid)
    ensures |t.rows[p.row].cells| == Width(t.columns)
    ensures Click(t, p, valid).table ==
      t.(rows := t.rows[p.row := t.rows[p.row].(cells := BuildFields(t.columns, t.rows[p.row].cells, false), editing := true)])
  {
    assert RowFits(t, t.rows[p.row]);
  }

  /**
   * Enter, when one row alone holds inputs, that row is editing and one of its
   * inputs is non-empty, saves that row (provided the form, if any, validates).
   */
  lemma EnterSavesEdited(t: Table, r: nat, c: nat, valid: bool)
    requires Valid(t) && r < |t.rows| && t.rows[r].editing
    requires c < |t.rows[r].cells| && t.rows[r].cells[c].Field? && t.rows[r].cells[c].value != ""
    requires forall i :: 0 <= i < |t.rows| && i != r ==> !Closing(t.rows[i])
    requires !t.inForm || valid
    ensures Selection(t, [r]) && SaveAllowed(t, valid)
    ensures EnterCommit(t, EnterKey, valid) == Save(t, [r], valid)
  {
    assert Closing(t.rows[r]);
    SingleClosing(t.rows, r);
  }

  /**
   * A table outside any form whose header or footer holds an input of its own,
   * such as a column search box, never opens a row: the gate counts every
   * input of the table.
   */
  lemma OuterInputBlocksEdit(t: Table, p: Pos, valid: bool)
    requires Valid(t) && t.outerInput && !t.inForm
    ensures Click(t, p, valid) == Unchanged(t)
  {
  }

  /**
   * Adding a row and pressing Enter without typing anything gives back the
   * table as it was: the blank new row is removed and, being unknown to
   * DataTables, does not come back.
   */
  lemma AddThenEnterRestores(t: Table, valid: bool)
    requires Valid(t) && !AnyEditing(t) && Width(t.columns) > 0
    ensures EnterCommit(AddRow(t).table, EnterKey, valid) == Unchanged(t)
  {
    var t1 := AddRow(t).table;
    AddedRowAlone(t);
    EnterDiscardsOne(t1, 0, valid);
    assert t1.rows[..0] + t1.rows[1..] == t.rows;
  }

  /** After addRow, the blank new row is the only one the Enter key acts on. */
  lemma AddedRowAlone(t: Table)
    requires Valid(t) && !AnyEditing(t) && Width(t.columns) > 0
    ensures var t1 := AddRow(t).table;
      && Valid(t1) && 0 < |t1.rows| && Closing(t1.rows[0]) && t1.rows[0].source.None?
      && (forall j :: 0 <= j < |t1.rows| && j != 0 ==> !Closing(t1.rows[j]))
      && Blank(t1)
      && t1 == t.(rows := t1.rows) && t1.rows[1..] == t.rows
  {
    var t1 := AddRow(t).table;
    assert Closing(t1.rows[0]) by {
      assert t1.rows[0].cells[0].Field?;
    }
    forall j | 0 <= j < |t1.rows| && j != 0
      ensures !Closing(t1.rows[j])
    {
      assert t1.rows[j] == t.rows[j - 1];
    }
  }

  /**
   * The record of an existing row after its cell c was opened, edited to `v`
   * and saved: the edited property holds `v`; the other editable cells, turned
   * into inputs seeded with their displayed text, write that text back as a
   * string; the other displayed cells write their data back (null when it was
   * undefined); properties no displayed column writes keep their value; and
   * the record's earlier properties keep their order.
   */
  ghost predicate EditedRecord(cols: seq<Column>, prev: Record, cells: seq<Cell>, c: nat, v: string, data: Record)
    requires |cells| == Width(cols) && c < |cells|
  {
    && Keys(prev) <= Keys(data)
    && Lookup(data, FieldOf(cols, c)) == Str(v)
    && (forall k :: 0 <= k < |cells| && k != c && IsEditable(cols, k) ==>
          Lookup(data, FieldOf(cols, k)) == Str(TextOf(cells[k])))
    && (forall k :: 0 <= k < |cells| && !IsEditable(cols, k) ==>
          Lookup(data, FieldOf(cols, k)) == CellData(prev, FieldOf(cols, k)))
    && (forall key :: !Writes(cols, |cells|, key) ==> Lookup(data, key) == Lookup(prev, key))
  }

  /**
   * What the save of one existing row writes, when displayed columns write
   * distinct properties: each cell's property receives the cell's input
   * value, or else its previous data; properties no displayed column writes
   * keep their value; the record's earlier properties keep their order.
   */
  ghost predicate SavedFrom(cols: seq<Column>, prev: Record, cells: seq<Cell>, data: Record)
    requires |cells| <= Width(cols)
  {
    && Keys(prev) <= Keys(data)
    && (forall k :: 0 <= k < |cells| ==>
          Lookup(data, FieldOf(cols, k)) ==
          (if cells[k].Field? then Str(cells[k].value) else CellData(prev, FieldOf(cols, k))))
    && (forall key :: !Writes(cols, |cells|, key) ==> Lookup(data, key) == Lookup(prev, key))
  }

  lemma SavedCells(t: Table, r: nat, valid: bool)
    requires Valid(t) && r < |t.rows| && t.rows[r].source.Some? && SaveAllowed(t, valid)
    requires DistinctVisibleFields(t.columns)
    ensures Selection(t, [r]) && |t.rows[r].cells| == Width(t.columns)
    ensures
      var s := Save(t, [r], valid);
      var i0 := t.rows[r].source.value;
      && i0 < |t.store| && s.saved.Some? && s.saved.value.rowIndex == i0
      && SavedFrom(t.columns, t.store[i0], t.rows[r].cells, s.saved.value.rowData)
  {
    assert RowFits(t, t.rows[r]);
    SaveOneRow(t, r, valid);
    var cols := t.columns;
    var cells := t.rows[r].cells;
    var prev := t.store[t.rows[r].source.value];
    forall k | 0 <= k < |cells|
      ensures MergedValue(cols, prev, cells, FieldOf(cols, k)) ==
        if cells[k].Field? then Str(cells[k].value) else CellData(prev, FieldOf(cols, k))
    {
      MergedValueDistinct(cols, prev, cells, k);
    }
    forall key | !Writes(cols, |cells|, key)
      ensures MergedValue(cols, prev, cells, key) == Lookup(prev, key)
    {
      assert LastInputFor(cols, cells, key).None?;
    }
  }

  /** From the cells of the opened and edited row to the record they save. */
  lemma EditedCells(cols: seq<Column>, prev: Record, cells: seq<Cell>, c: nat, v: string, data: Record)
    requires |cells| == Width(cols) && c < |cells| && IsEditable(cols, c)
    requires forall k :: 0 <= k < |cells| ==> cells[k].Shown?
    requires SavedFrom(cols, prev, BuildFields(cols, cells, false)[c := Field(v)], data)
    ensures EditedRecord(cols, prev, cells, c, v, data)
  {
    var cells2 := BuildFields(cols, cells, false)[c := Field(v)];
    assert Lookup(data, FieldOf(cols, c)) == Str(v) by {
      assert cells2[c] == Field(v);
    }
    forall k | 0 <= k < |cells| && k != c && IsEditable(cols, k)
      ensures Lookup(data, FieldOf(cols, k)) == Str(TextOf(cells[k]))
    {
      assert cells2[k] == Field(TextOf(cells[k]));
    }
    forall k | 0 <= k < |cells| && !IsEditable(cols, k)
      ensures Lookup(data, FieldOf(cols, k)) == CellData(prev, FieldOf(cols, k))
    {
      assert cells2[k] == cells[k];
    }
  }

  /** The table once the row at `p` was opened and `v` typed into the input at `p`. */
  function EditedTable(t: Table, p: Pos, v: string): (e: Table)
    requires Valid(t) && p.row < |t.rows| && p.cell < |t.rows[p.row].cells|
    ensures Valid(e)
  {
    var row := t.rows[p.row];
    assert RowFits(t, row);
    var row' := row.(cells := BuildFields(t.columns, row.cells, false)[p.cell := Field(v)], editing := true);
    ReplaceRowValid(t, p.row, row');
    t.(rows := t.rows[p.row := row'])
  }

  /** A click on an editable displayed cell, then typing into its input, gives EditedTable. */
  lemma ClickThenType(t: Table, p: Pos, v: string, valid: bool)
    requires Valid(t) && !HasInput(t)
    requires IsClickTarget(t, p) && t.rows[p.row].source.Some?
    requires IsEditable(t.columns, p.cell)
    ensures
      var t1 := Click(t, p, valid).table;
      && p.row < |t1.rows| && p.cell < |t1.rows[p.row].cells| && t1.rows[p.row].cells[p.cell].Field?
      && TypeInto(t1, p, v) == EditedTable(t, p, v)
  {
    var row := t.rows[p.row];
    assert RowFits(t, row);
    assert EditAllowed(t, valid);
    ClickOpens(t, p, valid);
  }

  /**
   * Enter, when one row alone is editing with inputs and every input of an
   * editing row is empty, removes that row from the body and saves nothing;
   * DataTables keeps the row if it knows it.
   */
  lemma EnterDiscardsOne(t: Table, r: nat, valid: bool)
    requires Valid(t) && r < |t.rows| && Closing(t.rows[r])
    requires forall i :: 0 <= i < |t.rows| && i != r ==> !Closing(t.rows[i])
    requires Blank(t)
    ensures EnterCommit(t, EnterKey, valid) ==
      Step(t.(rows := t.rows[..r] + t.rows[r + 1..],
              detached := t.detached + if t.rows[r].source.Some? then [t.rows[r]] else []), None, None)
  {
    FilterDropsOne(t.rows, Stays, r);
    FilterKeepsOne(t.rows, Returns, r);
  }

  /** Clicking an editable cell, typing a non-empty value and pressing Enter saves the edited row alone. */
  lemma ClickTypeEnter(t: Table, p: Pos, v: string, valid: bool)
    requires Valid(t) && !HasInput(t)
    requires IsClickTarget(t, p) && t.rows[p.row].source.Some?
    requires IsEditable(t.columns, p.cell)
    requires v != "" && (!t.inForm || valid)
    ensures
      var t1 := Click(t, p, valid).table;
      && p.row < |t1.rows| && p.cell < |t1.rows[p.row].cells| && t1.rows[p.row].cells[p.cell].Field?
      && TypeInto(t1, p, v) == EditedTable(t, p, v)
      && Valid(EditedTable(t, p, v)) && Selection(EditedTable(t, p, v), [p.row])
      && SaveAllowed(EditedTable(t, p, v), valid)
      && EnterCommit(TypeInto(t1, p, v), EnterKey, valid) == Save(EditedTable(t, p, v), [p.row], valid)
  {
    ClickThenType(t, p, v, valid);
    var row := t.rows[p.row];
    assert RowFits(t, row);
    var t2 := EditedTable(t, p, v);
    var cells2 := BuildFields(t.columns, row.cells, false)[p.cell := Field(v)];
    assert t2 == t.(rows := t.rows[p.row := row.(cells := cells2, editing := true)]);
    forall i | 0 <= i < |t2.rows| && i != p.row
      ensures !Closing(t2.rows[i])
    {
      assert t2.rows[i] == t.rows[i];
    }
    EnterSavesEdited(t2, p.row, p.cell, valid);
  }

  /** Saving the row at `p` once it was opened and `v` typed into the input at `p`: the event and the store. */
  lemma SavedEdit(t: Table, p: Pos, v: string, valid: bool)
    requires Valid(t) && !HasInput(t)
    requires IsClickTarget(t, p) && t.rows[p.row].source.Some?
    requires IsEditable(t.columns, p.cell)
    requires !t.inForm || valid
    ensures Selection(EditedTable(t, p, v), [p.row])
    ensures
      var s := Save(EditedTable(t, p, v), [p.row], valid);
      var i0 := t.rows[p.row].source.value;
      && i0 < |t.store| && |s.table.store| == |t.store|
      && s.saved == Some(SaveEvent(i0, s.table.store[i0]))
      && (forall j :: 0 <= j < |t.store| && j != i0 ==> s.table.store[j] == t.store[j])
  {
    var t2 := EditedTable(t, p, v);
    var row := t.rows[p.row];
    assert RowFits(t, row);
    var i0 := row.source.value;
    var cells2 := BuildFields(t.columns, row.cells, false)[p.cell := Field(v)];
    assert t2 == t.(rows := t.rows[p.row := row.(cells := cells2, editing := true)]);
    assert HasInput(t2) by {
      assert t2.rows[p.row].cells[p.cell].Field?;
    }
    assert FirstKnown(t2.rows, [p.row]) == Some(i0);
  }

  /** The cells the save of the opened and edited row at `p` writes back. */
  lemma SavedEditCells(t: Table, p: Pos, v: string, valid: bool)
    requires Valid(t) && !HasInput(t)
    requires IsClickTarget(t, p) && t.rows[p.row].source.Some?
    requires IsEditable(t.columns, p.cell) && DistinctVisibleFields(t.columns)
    requires !t.inForm || valid
    ensures Selection(EditedTable(t, p, v), [p.row]) && |t.rows[p.row].cells| == Width(t.columns)
    ensures
      var s := Save(EditedTable(t, p, v), [p.row], valid);
      var i0 := t.rows[p.row].source.value;
      && i0 < |t.store| && s.saved.Some?
      && SavedFrom(t.columns, t.store[i0], BuildFields(t.columns, t.rows[p.row].cells, false)[p.cell := Field(v)],
                   s.saved.value.rowData)
  {
    var t2 := EditedTable(t, p, v);
    var row := t.rows[p.row];
    assert RowFits(t, row);
    var cells2 := BuildFields(t.columns, row.cells, false)[p.cell := Field(v)];
    assert t2 == t.(rows := t.rows[p.row := row.(cells := cells2, editing := true)]);
    assert HasInput(t2) by {
      assert t2.rows[p.row].cells[p.cell].Field?;
    }
    SavedCells(t2, p.row, valid);
  }

  /** Saving the row at `p` once it was opened and `v` typed into the input at `p`: the saved record. */
  lemma SavedEditRecord(t: Table, p: Pos, v: string, valid: bool)
    requires Valid(t) && !HasInput(t)
    requires IsClickTarget(t, p) && t.rows[p.row].source.Some?
    requires IsEditable(t.columns, p.cell) && DistinctVisibleFields(t.columns)
    requires !t.inForm || valid
    ensures Selection(EditedTable(t, p, v), [p.row])
    ensures
      var s := Save(EditedTable(t, p, v), [p.row], valid);
      var i0 := t.rows[p.row].source.value;
      && i0 < |t.store| && |t.rows[p.row].cells| == Width(t.columns)
      && s.saved.Some?
      && EditedRecord(t.columns, t.store[i0], t.rows[p.row].cells, p.cell, v, s.saved.value.rowData)
  {
    SavedEditCells(t, p, v, valid);
    var i0 := t.rows[p.row].source.value;
    var data := Save(EditedTable(t, p, v), [p.row], valid).saved.value.rowData;
    assert !RowHasInput(t.rows[p.row]);
    EditedCells(t.columns, t.store[i0], t.rows[p.row].cells, p.cell, v, data);
  }

  /**
   * Clicking an editable cell of a displayed row, typing a non-empty value
   * into its input and pressing Enter saves that row alone: the event carries
   * the row's store index and its updated record (see EditedRecord), and no
   * other record changes.
   */
  lemma EditRoundTrip(t: Table, p: Pos, v: string, valid: bool)
    requires Valid(t) && !HasInput(t)
    requires IsClickTarget(t, p) && t.rows[p.row].source.Some?
    requires IsEditable(t.columns, p.cell) && DistinctVisibleFields(t.columns)
    requires v != "" && (!t.inForm || valid)
    ensures
      var t1 := Click(t, p, valid).table;
      && p.row < |t1.rows| && p.cell < |t1.rows[p.row].cells| && t1.rows[p.row].cells[p.cell].Field?
      && var s := EnterCommit(TypeInto(t1, p, v), EnterKey, valid);
         var i0 := t.rows[p.row].source.value;
         && i0 < |t.store| && |s.table.store| == |t.store|
         && s.saved == Some(SaveEvent(i0, s.table.store[i0]))
         && |t.rows[p.row].cells| == Width(t.columns)
         && EditedRecord(t.columns, t.store[i0], t.rows[p.row].cells, p.cell, v, s.table.store[i0])
         && (forall j :: 0 <= j < |t.store| && j != i0 ==> s.table.store[j] == t.store[j])
  {
    ClickTypeEnter(t, p, v, valid);
    SavedEdit(t, p, v, valid);
    SavedEditRecord(t, p, v, valid);
  }

  /** The inputs of a new row of width n after `v` was typed into the c-th. */
  function TypedRow(n: nat, c: nat, v: string): (cells: seq<Cell>)
    ensures |cells| == n
  {
    seq(n, k requires 0 <= k < n => Field(if k == c then v else ""))
  }

  /** Adding a row, typing into its c-th input and pressing Enter stores the new row's record. */
  lemma AddTypeEnter(t: Table, c: nat, v: string, valid: bool)
    requires Valid(t) && !AnyEditing(t) && c < Width(t.columns)
    requires v != "" && (!t.inForm || valid)
    ensures
      var t1 := AddRow(t).table;
      && 0 < |t1.rows| && c < |t1.rows[0].cells| && t1.rows[0].cells[c].Field?
      && var s := EnterCommit(TypeInto(t1, Pos(0, c), v), EnterKey, valid);
         && |s.table.store| == |t.store| + 1
         && s.table.store[..|t.store|] == t.store
         && s.saved == Some(SaveEvent(|t.store|, s.table.store[|t.store|]))
         && s.table.store[|t.store|] == NewRecord(t.columns, TypedRow(Width(t.columns), c, v))
  {
    var t1 := AddRow(t).table;
    var t2 := TypeInto(t1, Pos(0, c), v);
    var cells2 := t1.rows[0].cells[c := Field(v)];
    assert t2.rows[0].cells == cells2;
    assert cells2 == TypedRow(Width(t.columns), c, v);
    forall i | 0 <= i < |t2.rows| && i != 0
      ensures !Closing(t2.rows[i])
    {
      assert t2.rows[i] == t1.rows[1..][i - 1];
    }
    EnterSavesEdited(t2, 0, c, valid);
    assert FirstKnown(t2.rows, [0]).None?;
    assert SelectedCells(t2, [0]) == cells2 by {
      assert [0][..0] == [];
    }
  }

  /** With no hidden column and distinct properties, each column's property holds its input's value. */
  lemma TypedRecord(cols: seq<Column>, c: nat, v: string)
    requires forall j :: 0 <= j < |cols| ==> cols[j].visible
    requires DistinctFields(cols)
    ensures Keys(NewRecord(cols, TypedRow(Width(cols), c, v))) == Fields(cols)
    ensures forall i :: 0 <= i < |cols| ==>
      Lookup(NewRecord(cols, TypedRow(Width(cols), c, v)), cols[i].field) == Str(if i == c then v else "")
  {
    var cells := TypedRow(Width(cols), c, v);
    var r := NewRecord(cols, cells);
    AllVisible(cols);
  }

  /**
   * Adding a row, typing a non-empty value into its c-th input and pressing
   * Enter appends one record to the data and announces it with the index it
   * gets; with no hidden column and distinct data properties, the record has
   * one property per column, in column order, holding what was typed (the
   * empty string for the untouched inputs).
   */
  lemma NewRowRoundTrip(t: Table, c: nat, v: string, valid: bool)
    requires Valid(t) && !AnyEditing(t) && c < Width(t.columns)
    requires (forall j :: 0 <= j < |t.columns| ==> t.columns[j].visible) && DistinctFields(t.columns)
    requires v != "" && (!t.inForm || valid)
    ensures
      var t1 := AddRow(t).table;
      && 0 < |t1.rows| && c < |t1.rows[0].cells| && t1.rows[0].cells[c].Field?
      && var s := EnterCommit(TypeInto(t1, Pos(0, c), v), EnterKey, valid);
         && |s.table.store| == |t.store| + 1
         && s.table.store[..|t.store|] == t.store
         && s.saved == Some(SaveEvent(|t.store|, s.table.store[|t.store|]))
         && Keys(s.table.store[|t.store|]) == Fields(t.columns)
         && (forall i :: 0 <= i < |t.columns| ==>
               Lookup(s.table.store[|t.store|], t.columns[i].field) == Str(if i == c then v else ""))
  {
    AddTypeEnter(t, c, v, valid);
    TypedRecord(t.columns, c, v);
  }

  /** Clearing the clicked input of a row whose other editable texts are empty leaves that row alone closing, and blank. */
  lemma ClearedBlank(t: Table, p: Pos)
    requires Valid(t) && !HasInput(t)
    requires p.row < |t.rows| && p.cell < |t.rows[p.row].cells|
    requires forall k :: 0 <= k < |t.rows[p.row].cells| && k != p.cell && IsEditable(t.columns, k) ==>
      TextOf(t.rows[p.row].cells[k]) == ""
    ensures
      var t2 := EditedTable(t, p, "");
      && Closing(t2.rows[p.row]) && Blank(t2)
      && (forall i :: 0 <= i < |t2.rows| && i != p.row ==> !Closing(t2.rows[i]))
      && t2.rows[..p.row] == t.rows[..p.row] && t2.rows[p.row + 1..] == t.rows[p.row + 1..]
  {
    var row := t.rows[p.row];
    assert RowFits(t, row);
    var t2 := EditedTable(t, p, "");
    var cells2 := BuildFields(t.columns, row.cells, false)[p.cell := Field("")];
    assert t2 == t.(rows := t.rows[p.row := row.(cells := cells2, editing := true)]);
    assert Closing(t2.rows[p.row]) by {
      assert cells2[p.cell].Field?;
    }
    forall i | 0 <= i < |t2.rows| && i != p.row
      ensures !Closing(t2.rows[i])
    {
      assert t2.rows[i] == t.rows[i];
    }
    forall k | 0 <= k < |cells2| && cells2[k].Field?
      ensures cells2[k].value == ""
    {
      assert !row.cells[k].Field?;
    }
    forall i, k | 0 <= i < |t2.rows| && i != p.row && 0 <= k < |t2.rows[i].cells|
      ensures !t2.rows[i].cells[k].Field?
    {
      assert t2.rows[i] == t.rows[i];
    }
    assert t2.rows[..p.row] == t.rows[..p.row];
    assert t2.rows[p.row + 1..] == t.rows[p.row + 1..];
  }

  /**
   * Opening a row whose only non-empty input would be the clicked one,
   * clearing that input and pressing Enter saves nothing, whatever the form's
   * verdict: the row leaves the body, the other rows stay in order, the data
   * is untouched, and DataTables keeps the removed row to show it again at its
   * next draw.
   */
  lemma ClearedRowLeaves(t: Table, p: Pos, valid: bool)
    requires Valid(t) && !HasInput(t)
    requires IsClickTarget(t, p) && t.rows[p.row].source.Some?
    requires IsEditable(t.columns, p.cell)
    requires forall k :: 0 <= k < |t.rows[p.row].cells| && k != p.cell && IsEditable(t.columns, k) ==>
      TextOf(t.rows[p.row].cells[k]) == ""
    ensures
      var t1 := Click(t, p, valid).table;
      && p.row < |t1.rows| && p.cell < |t1.rows[p.row].cells| && t1.rows[p.row].cells[p.cell].Field?
      && var t2 := TypeInto(t1, p, "");
         var s := EnterCommit(t2, EnterKey, valid);
         && s.saved.None?
         && s.table.store == t.store
         && s.table.rows == t.rows[..p.row] + t.rows[p.row + 1..]
         && s.table.detached == t.detached + [t2.rows[p.row]]
  {
    ClickThenType(t, p, "", valid);
    ClearedBlank(t, p);
    var t2 := EditedTable(t, p, "");
    EnterDiscardsOne(t2, p.row, valid);
  }
}

=== FILE: session.dfy ===
/**
 * The edit session: adding a row, the default click handler that opens a row
 * for editing, the save handler, and the Enter key handler that commits or
 * discards. Each transition takes the table and returns the next table, the
 * input given focus (if any) and the save event emitted (if any). Form
 * validation is an outside oracle: `valid` is its verdict at that event.
 */
module Session {
  import opened Options
  import opened Js
  import opened Records
  import opened Tables
  import opened Materializer

  /** The `save.dataTableEditable` event: the row index and the saved data. */
  datatype SaveEvent = SaveEvent(rowIndex: nat, rowData: Record)

  datatype Step = Step(table: Table, focus: Option<Pos>, saved: Option<SaveEvent>)

  function Unchanged(t: Table): Step {
    Step(t, None, None)
  }

  /**
   * `editable().addRow()`: refused while any row is being edited; otherwise a
   * row unknown to DataTables, with one cell per header cell, is prepended,
   * marked editing, every cell turned into an empty input whatever the
   * columns' editable settings, and its first input focused.
   */
  function AddRow(t: Table): (s: Step)
    requires Valid(t)
    ensures Valid(s.table)
    ensures s.saved.None?
    ensures AnyEditing(t) ==> s == Unchanged(t)
    ensures !AnyEditing(t) ==>
      && s.table == t.(rows := s.table.rows)
      && |s.table.rows| == |t.rows| + 1
      && s.table.rows[1..] == t.rows
      && s.table.rows[0].source.None?
      && s.table.rows[0].editing
      && |s.table.rows[0].cells| == Width(t.columns)
      && (forall k :: 0 <= k < Width(t.columns) ==> s.table.rows[0].cells[k] == Field(""))
      && s.focus == (if Width(t.columns) > 0 then Some(Pos(0, 0)) else None)
  {
    if AnyEditing(t) then Unchanged(t)
    else
      var blank := seq(Width(t.columns), _ => Shown(""));
      var cells := BuildFields(t.columns, blank, true);
      var rows := [Row(None, cells, true)] + t.rows;
      assert rows[1..] == t.rows;
      Step(t.(rows := rows), FocusTarget(t.columns, 0, cells, None), None)
  }

  /**
   * The gate of the default edit handler: when the table already holds inputs
   * it goes on only if they sit inside a form and validate.
   */
  predicate EditAllowed(t: Table, valid: bool) {
    !HasInput(t) || (t.inForm && valid)
  }

  /**
   * The default edit handler for a click on the cell at `p`. It does not save
   * any other row; once past the gate it applies the row template to the
   * clicked row, marks it editing and focuses the clicked cell's input if its
   * column is editable, else the row's first input. A row DataTables does not
   * know makes the template's editability check throw before anything changes.
   */
  function BeginEdit(t: Table, p: Pos, valid: bool): (s: Step)
    requires Valid(t) && p.row < |t.rows| && p.cell < |t.rows[p.row].cells|
    ensures Valid(s.table)
    ensures s.saved.None?
    ensures !EditAllowed(t, valid) || t.rows[p.row].source.None? ==> s == Unchanged(t)
    ensures s.table == t.(rows := s.table.rows)
    ensures |s.table.rows| == |t.rows|
    ensures forall i :: 0 <= i < |t.rows| && i != p.row ==> s.table.rows[i] == t.rows[i]
    ensures EditAllowed(t, valid) && t.rows[p.row].source.Some? ==>
      && s.table.rows[p.row].editing
      && s.table.rows[p.row].source == t.rows[p.row].source
      && s.table.rows[p.row].cells == BuildFields(t.columns, t.rows[p.row].cells, false)
      && (IsEditable(t.columns, p.cell) ==> s.focus == Some(p))
      && (s.focus.Some? ==> s.focus.value.row == p.row && s.focus.value.cell < Width(t.columns)
                             && s.table.rows[p.row].cells[s.focus.value.cell].Field?)
      && (s.focus.None? ==> !RowHasInput(s.table.rows[p.row]))
      && (!IsEditable(t.columns, p.cell) && s.focus.Some? ==>
            forall i :: 0 <= i < s.focus.value.cell ==> !s.table.rows[p.row].cells[i].Field?)
  {
    if !EditAllowed(t, valid) then Unchanged(t)
    else
      var row := t.rows[p.row];
      if row.source.None? then Unchanged(t)
      else
        var cells := BuildFields(t.columns, row.cells, false);
        var row' := row.(cells := cells, editing := true);
        ReplaceRowValid(t, p.row, row');
        Step(t.(rows := t.rows[p.row := row']), FocusTarget(t.columns, p.row, cells, Some(p.cell)), None)
  }

  /** The click listener's target: a body cell that holds no input. */
  predicate IsClickTarget(t: Table, p: Pos) {
    p.row < |t.rows| && p.cell < |t.rows[p.row].cells| && t.rows[p.row].cells[p.cell].Shown?
  }

  /** A click in the table body, for a table without a user-defined edit handler. */
  function Click(t: Table, p: Pos, valid: bool): (s: Step)
    requires Valid(t)
    ensures Valid(s.table)
    ensures p.row < |t.rows| && p.cell < |t.rows[p.row].cells| && t.rows[p.row].cells[p.cell].Field? ==> s == Unchanged(t)
    ensures p.row >= |t.rows| || p.cell >= |t.rows[p.row].cells| ==> s == Unchanged(t)
    ensures s.table.store == t.store && s.saved.None?
  {
    if IsClickTarget(t, p) then BeginEdit(t, p, valid) else Unchanged(t)
  }

  /** Body positions handed to the save handler, in document order. */
  predicate Selection(t: Table, sel: seq<nat>) {
    && (forall j :: 0 <= j < |sel| ==> sel[j] < |t.rows|)
    && (forall a, b :: 0 <= a < b < |sel| ==> sel[a] < sel[b])
  }

  /** The cells of the selected rows, in document order, as the existing-row save visits them (line 174). */
  function SelectedTds(t: Table, sel: seq<nat>): (tds: seq<Td>)
    requires Valid(t) && Selection(t, sel)
    ensures TdsFit(t.columns, t.store, tds)
    ensures (forall j :: 0 <= j < |sel| ==> t.rows[sel[j]].source.Some?) ==>
      forall j :: 0 <= j < |tds| ==> tds[j].source.Some?
  {
    if |sel| == 0 then []
    else
      var n := |sel| - 1;
      var r := t.rows[sel[n]];
      SelectedTds(t, sel[..n]) + RowTds(r.source, r.cells)
  }

  /** Every selected row with a cell contributes a cell carrying its store index, or None, to SelectedTds. */
  lemma {:induction false} SelectedTdsHold(t: Table, sel: seq<nat>, j: nat)
    requires Valid(t) && Selection(t, sel) && j < |sel| && |t.rows[sel[j]].cells| > 0
    ensures exists k :: 0 <= k < |SelectedTds(t, sel)| && SelectedTds(t, sel)[k].source == t.rows[sel[j]].source
  {
    var n := |sel| - 1;
    var front := SelectedTds(t, sel[..n]);
    var r := t.rows[sel[n]];
    assert SelectedTds(t, sel) == front + RowTds(r.source, r.cells);
    if j == n {
      assert SelectedTds(t, sel)[|front|] == RowTds(r.source, r.cells)[0];
    } else {
      assert sel[..n][j] == sel[j];
      SelectedTdsHold(t, sel[..n], j);
      var k :| 0 <= k < |front| && front[k].source == t.rows[sel[j]].source;
      assert SelectedTds(t, sel)[k] == front[k];
    }
  }

  /** The cells of the selected rows, in document order, as the new-row save indexes them (line 163). */
  function SelectedCells(t: Table, sel: seq<nat>): seq<Cell>
    requires Selection(t, sel)
  {
    if |sel| == 0 then [] else SelectedCells(t, sel[..|sel| - 1]) + t.rows[sel[|sel| - 1]].cells
  }

  /**
   * `dt.row($row)`: the store index of the first selected row DataTables knows,
   * or None, in which case `.node()` is null and the rows are saved as new.
   */
  function FirstKnown(rows: seq<Row>, sel: seq<nat>): (o: Option<nat>)
    requires forall j :: 0 <= j < |sel| ==> sel[j] < |rows|
    ensures o.None? <==> forall j :: 0 <= j < |sel| ==> rows[sel[j]].source.None?
    ensures o.Some? ==> exists j :: (&& 0 <= j < |sel| && rows[sel[j]].source == o
                                     && forall j' :: 0 <= j' < j ==> rows[sel[j']].source.None?)
  {
    if |sel| == 0 then None
    else if rows[sel[0]].source.Some? then rows[sel[0]].source
    else
      var o := FirstKnown(rows, sel[1..]);
      assert o.Some? ==> exists j :: (&& 0 <= j < |sel| && rows[sel[j]].source == o
                                      && forall j' :: 0 <= j' < j ==> rows[sel[j']].source.None?) by {
        if o.Some? {
          var j :| 0 <= j < |sel[1..]| && rows[sel[1..][j]].source == o
            && forall j' :: 0 <= j' < j ==> rows[sel[1..][j']].source.None?;
          assert forall j' :: 0 <= j' < j + 1 ==> rows[sel[j']].source.None? by {
            forall j' | 0 <= j' < j + 1 ensures rows[sel[j']].source.None? {
              if j' > 0 { assert sel[j'] == sel[1..][j' - 1]; }
            }
          }
          assert rows[sel[j + 1]].source == o;
        }
      }
      o
  }

  /** The rows with the `editing` mark removed from the selected ones (line 196). */
  function ClearEditing(rows: seq<Row>, sel: seq<nat>): (out: seq<Row>)
    ensures |out| == |rows|
    ensures forall i :: 0 <= i < |rows| ==> out[i] == if i in sel then rows[i].(editing := false) else rows[i]
  {
    seq(|rows|, i requires 0 <= i < |rows| => if i in sel then rows[i].(editing := false) else rows[i])
  }

  /** The rows DataTables knows, in document order. */
  function KnownRows(rows: seq<Row>): (out: seq<Row>)
    ensures forall r :: r in out <==> r in rows && r.source.Some?
  {
    if |rows| == 0 then []
    else if rows[0].source.Some? then [rows[0]] + KnownRows(rows[1..])
    else KnownRows(rows[1..])
  }

  /**
   * The body after `dt.draw()`: rows unknown to DataTables are gone and rows
   * removed from the body are back. Ordering, filtering and paging are not modelled.
   */
  function Draw(rows: seq<Row>, detached: seq<Row>): seq<Row> {
    KnownRows(rows) + detached
  }

  /** `row().data(d)`: the row's cells are rendered again from the new data. */
  function Rerender(cols: seq<Column>, rows: seq<Row>, i0: nat, r: Record): (out: seq<Row>)
    ensures |out| == |rows|
    ensures forall i :: 0 <= i < |rows| ==>
      out[i] == if rows[i].source == Some(i0) then rows[i].(cells := RenderCells(cols, r)) else rows[i]
  {
    seq(|rows|, i requires 0 <= i < |rows| =>
      if rows[i].source == Some(i0) then rows[i].(cells := RenderCells(cols, r)) else rows[i])
  }

  /** Whether the save handler may go on: the table holds inputs and, inside a form, the form validates. */
  predicate SaveAllowed(t: Table, valid: bool) {
    HasInput(t) && (!t.inForm || valid)
  }

  /** Every row of the redrawn body is a DataTables row that fits a store at least as large. */
  lemma DrawFits(t: Table, sel: seq<nat>, size: nat)
    requires Valid(t) && size >= |t.store|
    ensures forall i :: 0 <= i < |Draw(ClearEditing(t.rows, sel), t.detached)| ==>
      var r := Draw(ClearEditing(t.rows, sel), t.detached)[i];
      r.source.Some? && r.source.value < size && |r.cells| == Width(t.columns)
  {
    var c := ClearEditing(t.rows, sel);
    var k := KnownRows(c);
    forall i | 0 <= i < |k|
      ensures k[i].source.Some? && k[i].source.value < size && |k[i].cells| == Width(t.columns)
    {
      assert k[i] in c;
      var j :| 0 <= j < |c| && c[j] == k[i];
    }
  }

  /** The new-row save: the record built from the cells is appended to the store and shown after the redraw. */
  function SaveNew(t: Table, sel: seq<nat>): (s: Step)
    requires Valid(t) && Selection(t, sel)
    ensures Valid(s.table)
    ensures s.table.columns == t.columns && s.table.inForm == t.inForm && s.focus.None?
    ensures |s.table.store| == |t.store| + 1
    ensures s.table.store[..|t.store|] == t.store
    ensures s.table.store[|t.store|] == NewRecord(t.columns, SelectedCells(t, sel))
    ensures s.saved == Some(SaveEvent(|t.store|, s.table.store[|t.store|]))
    ensures s.table.detached == []
    ensures forall i :: 0 <= i < |s.table.rows| ==> s.table.rows[i].source.Some?
    ensures forall i :: 0 <= i < |s.table.rows| && s.table.rows[i].source == Some(|t.store|) ==>
      s.table.rows[i].cells == RenderCells(t.columns, s.table.store[|t.store|])
  {
    var rec := NewRecord(t.columns, SelectedCells(t, sel));
    var idx := |t.store|;
    var rows := Draw(ClearEditing(t.rows, sel), t.detached) + [Row(Some(idx), RenderCells(t.columns, rec), false)];
    var store := t.store + [rec];
    assert store[..idx] == t.store;
    AppendedValid(t, sel, rec);
    Step(t.(store := store, rows := rows, detached := []), None, Some(SaveEvent(idx, rec)))
  }

  /** The body redrawn, with a row for the appended record last, fits the grown store. */
  lemma AppendedValid(t: Table, sel: seq<nat>, rec: Record)
    requires Valid(t)
    ensures
      var rows := Draw(ClearEditing(t.rows, sel), t.detached) + [Row(Some(|t.store|), RenderCells(t.columns, rec), false)];
      && Valid(t.(store := t.store + [rec], rows := rows, detached := []))
      && (forall i :: 0 <= i < |rows| ==> rows[i].source.Some?)
  {
    var drawn := Draw(ClearEditing(t.rows, sel), t.detached);
    DrawFits(t, sel, |t.store| + 1);
    var rows := drawn + [Row(Some(|t.store|), RenderCells(t.columns, rec), false)];
    var t' := t.(store := t.store + [rec], rows := rows, detached := []);
    forall i | 0 <= i < |rows|
      ensures RowFits(t', rows[i]) && rows[i].source.Some?
    {
      if i < |drawn| {
        assert rows[i] == drawn[i];
      }
    }
  }

  /**
   * The existing-row save: the cells are merged into the record of row `i0`
   * in place; when the loop completes the row is rendered again, the body
   * redrawn and the event emitted.
   */
  function SaveExisting(t: Table, sel: seq<nat>, i0: nat): (s: Step)
    requires Valid(t) && Selection(t, sel) && i0 < |t.store|
    ensures Valid(s.table)
    ensures s.table.columns == t.columns && s.table.inForm == t.inForm && s.focus.None?
    ensures |s.table.store| == |t.store|
    ensures forall j :: 0 <= j < |t.store| && j != i0 ==> s.table.store[j] == t.store[j]
    ensures Keys(t.store[i0]) <= Keys(s.table.store[i0])
    ensures (forall j :: 0 <= j < |sel| ==> t.rows[sel[j]].source.Some?) ==> s.saved.Some?
    ensures (exists j :: 0 <= j < |sel| && t.rows[sel[j]].source.None? && |t.rows[sel[j]].cells| > 0) ==> s.saved.None?
    ensures s.saved.Some? ==> s.saved == Some(SaveEvent(i0, s.table.store[i0]))
    ensures s.saved.None? ==> s.table.rows == t.rows && s.table.detached == t.detached
    ensures s.saved.Some? ==> s.table.detached == []
    ensures s.saved.Some? ==> forall i :: 0 <= i < |s.table.rows| ==> s.table.rows[i].source.Some?
    ensures s.saved.Some? ==> forall i :: 0 <= i < |s.table.rows| && s.table.rows[i].source == Some(i0) ==>
      s.table.rows[i].cells == RenderCells(t.columns, s.table.store[i0])
  {
    var (rec, done) := Merge(t.columns, t.store, i0, t.store[i0], SelectedTds(t, sel));
    UnknownRowStops(t, sel, i0);
    var store := t.store[i0 := rec];
    if !done then Step(t.(store := store), None, None)
    else
      var rows := Rerender(t.columns, Draw(ClearEditing(t.rows, sel), t.detached), i0, rec);
      RerenderedValid(t, sel, i0, rec);
      Step(t.(store := store, rows := rows, detached := []), None, Some(SaveEvent(i0, rec)))
  }

  /** A selected row DataTables does not know, holding a cell, stops the cell loop (line 177 throws). */
  lemma UnknownRowStops(t: Table, sel: seq<nat>, i0: nat)
    requires Valid(t) && Selection(t, sel) && i0 < |t.store|
    ensures (exists j :: 0 <= j < |sel| && t.rows[sel[j]].source.None? && |t.rows[sel[j]].cells| > 0) ==>
      !Merge(t.columns, t.store, i0, t.store[i0], SelectedTds(t, sel)).1
  {
    if exists j :: 0 <= j < |sel| && t.rows[sel[j]].source.None? && |t.rows[sel[j]].cells| > 0 {
      var j :| 0 <= j < |sel| && t.rows[sel[j]].source.None? && |t.rows[sel[j]].cells| > 0;
      SelectedTdsHold(t, sel, j);
    }
  }

  /** The body redrawn and row `i0` rendered again fit the store with record `i0` replaced. */
  lemma RerenderedValid(t: Table, sel: seq<nat>, i0: nat, rec: Record)
    requires Valid(t) && i0 < |t.store|
    ensures
      var rows := Rerender(t.columns, Draw(ClearEditing(t.rows, sel), t.detached), i0, rec);
      && Valid(t.(store := t.store[i0 := rec], rows := rows, detached := []))
      && (forall i :: 0 <= i < |rows| ==> rows[i].source.Some?)
  {
    var drawn := Draw(ClearEditing(t.rows, sel), t.detached);
    DrawFits(t, sel, |t.store|);
    var rows := Rerender(t.columns, drawn, i0, rec);
    var t' := t.(store := t.store[i0 := rec], rows := rows, detached := []);
    forall i | 0 <= i < |rows|
      ensures RowFits(t', rows[i]) && rows[i].source.Some?
    {
      assert drawn[i].source.Some? && drawn[i].source.value < |t.store|;
    }
  }

  /**
   * The save handler for the rows at `sel`. Unless refused, it either appends a
   * new record built from the cells (when DataTables knows none of the rows) or
   * merges the cells into the record of the first known row, then redraws,
   * emits one save event and clears `editing` on the rows.
   */
  function Save(t: Table, sel: seq<nat>, valid: bool): (s: Step)
    requires Valid(t) && Selection(t, sel)
    ensures Valid(s.table)
    ensures s.focus.None?
    ensures s.table.columns == t.columns && s.table.inForm == t.inForm
    ensures !SaveAllowed(t, valid) ==> s == Unchanged(t)
    ensures SaveAllowed(t, valid) && FirstKnown(t.rows, sel).None? ==>
      && |s.table.store| == |t.store| + 1
      && s.table.store[..|t.store|] == t.store
      && s.table.store[|t.store|] == NewRecord(t.columns, SelectedCells(t, sel))
      && s.saved == Some(SaveEvent(|t.store|, s.table.store[|t.store|]))
    ensures SaveAllowed(t, valid) && FirstKnown(t.rows, sel).Some? ==>
      var i0 := FirstKnown(t.rows, sel).value;
      && |s.table.store| == |t.store|
      && (forall j :: 0 <= j < |t.store| && j != i0 ==> s.table.store[j] == t.store[j])
      && Keys(t.store[i0]) <= Keys(s.table.store[i0])
      && ((forall j :: 0 <= j < |sel| ==> t.rows[sel[j]].source.Some?) ==> s.saved.Some?)
      && ((exists j :: 0 <= j < |sel| && t.rows[sel[j]].source.None? && |t.rows[sel[j]].cells| > 0) ==> s.saved.None?)
      && (s.saved.Some? ==> s.saved == Some(SaveEvent(i0, s.table.store[i0])))
      && (s.saved.None? ==> s.table.rows == t.rows && s.table.detached == t.detached)
    ensures s.saved.Some? ==>
      && s.saved.value.rowIndex < |s.table.store|
      && s.table.detached == []
      && (forall i :: 0 <= i < |s.table.rows| ==> s.table.rows[i].source.Some?)
      && (forall i :: 0 <= i < |s.table.rows| && s.table.rows[i].source == Some(s.saved.value.rowIndex) ==>
            s.table.rows[i].cells == RenderCells(t.columns, s.saved.value.rowData))
  {
    if !SaveAllowed(t, valid) then Unchanged(t)
    else match FirstKnown(t.rows, sel)
      case None => SaveNew(t, sel)
      case Some(i0) =>
        var j :| 0 <= j < |sel| && t.rows[sel[j]].source == Some(i0);
        assert RowFits(t, t.rows[sel[j]]);
        SaveExisting(t, sel, i0)
  }

  /** Whether `r` stands for an editing row of `t` outside `sel`, or for a row removed earlier. */
  predicate LeftOpen(t: Table, sel: seq<nat>, r: Row) {
    || (exists j :: 0 <= j < |t.rows| && j !in sel && t.rows[j].editing && t.rows[j].source == r.source)
    || (exists d :: 0 <= d < |t.detached| && t.detached[d].editing && t.detached[d].source == r.source)
  }

  /** The redraw after clearing `editing` on the selection leaves no selected row editing. */
  lemma DrawnEditing(t: Table, sel: seq<nat>)
    ensures var drawn := Draw(ClearEditing(t.rows, sel), t.detached);
      forall i :: 0 <= i < |drawn| && drawn[i].editing ==> LeftOpen(t, sel, drawn[i])
  {
    var c := ClearEditing(t.rows, sel);
    var k := KnownRows(c);
    var drawn := k + t.detached;
    forall i | 0 <= i < |drawn| && drawn[i].editing
      ensures LeftOpen(t, sel, drawn[i])
    {
      if i < |k| {
        assert k[i] in c;
        var j :| 0 <= j < |c| && c[j] == k[i];
        assert j !in sel && t.rows[j].editing;
      } else {
        assert t.detached[i - |k|] == drawn[i];
      }
    }
  }

  /**
   * After a completed save none of the selected rows is editing: a row of the
   * redrawn body is editing only if it was an editing row outside the
   * selection, or a row removed from the body earlier.
   */
  lemma SaveClosesSelection(t: Table, sel: seq<nat>, valid: bool)
    requires Valid(t) && Selection(t, sel)
    ensures var s := Save(t, sel, valid);
      s.saved.Some? ==> forall i :: 0 <= i < |s.table.rows| && s.table.rows[i].editing ==> LeftOpen(t, sel, s.table.rows[i])
  {
    if SaveAllowed(t, valid) {
      match FirstKnown(t.rows, sel)
      case None => NewClosesSelection(t, sel);
      case Some(i0) =>
        var j :| 0 <= j < |sel| && t.rows[sel[j]].source == Some(i0);
        assert RowFits(t, t.rows[sel[j]]);
        ExistingClosesSelection(t, sel, i0);
    }
  }

  lemma NewClosesSelection(t: Table, sel: seq<nat>)
    requires Valid(t) && Selection(t, sel)
    ensures var s := SaveNew(t, sel);
      forall i :: 0 <= i < |s.table.rows| && s.table.rows[i].editing ==> LeftOpen(t, sel, s.table.rows[i])
  {
    var s := SaveNew(t, sel);
    var drawn := Draw(ClearEditing(t.rows, sel), t.detached);
    DrawnEditing(t, sel);
    assert s.table.rows == drawn + [Row(Some(|t.store|), RenderCells(t.columns, s.table.store[|t.store|]), false)];
  }

  lemma ExistingClosesSelection(t: Table, sel: seq<nat>, i0: nat)
    requires Valid(t) && Selection(t, sel) && i0 < |t.store|
    ensures var s := SaveExisting(t, sel, i0);
      s.saved.Some? ==> forall i :: 0 <= i < |s.table.rows| && s.table.rows[i].editing ==> LeftOpen(t, sel, s.table.rows[i])
  {
    var s := SaveExisting(t, sel, i0);
    if s.saved.Some? {
      var drawn := Draw(ClearEditing(t.rows, sel), t.detached);
      DrawnEditing(t, sel);
      assert s.table.rows == Rerender(t.columns, drawn, i0, s.table.store[i0]);
    }
  }

  /**
   * Saving a single existing row: the event carries the row's own index and a
   * record holding, under every key, the MergedValue of the row's cells, with
   * the record's earlier properties kept in their order.
   */
  lemma SaveOneRow(t: Table, r: nat, valid: bool)
    requires Valid(t) && r < |t.rows| && t.rows[r].source.Some?
    requires SaveAllowed(t, valid)
    ensures Selection(t, [r])
    ensures var s := Save(t, [r], valid);
      var i0 := t.rows[r].source.value;
      && i0 < |t.store|
      && s.saved.Some? && s.saved.value.rowIndex == i0
      && Keys(t.store[i0]) <= Keys(s.saved.value.rowData)
      && forall key :: Lookup(s.saved.value.rowData, key) == MergedValue(t.columns, t.store[i0], t.rows[r].cells, key)
  {
    assert RowFits(t, t.rows[r]);
    var i0 := t.rows[r].source.value;
    assert SelectedTds(t, [r]) == RowTds(Some(i0), t.rows[r].cells) by {
      assert [r][..0] == [];
    }
    MergeOneRow(t.columns, t.store, i0, t.rows[r].cells);
  }

  /** The key code of Enter. */
  const EnterKey := 13

  /** The rows found by `tr.editing input`: editing rows holding at least one input, in document order. */
  function EditingWithInputs(rows: seq<Row>): (sel: seq<nat>)
    ensures forall j :: 0 <= j < |sel| ==> sel[j] < |rows|
    ensures forall a, b :: 0 <= a < b < |sel| ==> sel[a] < sel[b]
    ensures forall i :: 0 <= i < |rows| ==> (i in sel <==> Closing(rows[i]))
  {
    Positions(rows, Closing)
  }

  /** A row the Enter key acts on: editing and holding an input. */
  predicate Closing(r: Row) {
    r.editing && RowHasInput(r)
  }

  /** No input of an editing row holds a non-empty value. */
  predicate Blank(t: Table) {
    forall i, k :: 0 <= i < |t.rows| && t.rows[i].editing && 0 <= k < |t.rows[i].cells| && t.rows[i].cells[k].Field? ==>
      t.rows[i].cells[k].value == ""
  }

  /** The indexes of the rows satisfying keep, in increasing order. */
  function Positions(rows: seq<Row>, keep: Row -> bool): (idx: seq<nat>)
    ensures forall j :: 0 <= j < |idx| ==> idx[j] < |rows| && keep(rows[idx[j]])
    ensures forall a, b :: 0 <= a < b < |idx| ==> idx[a] < idx[b]
    ensures forall i :: 0 <= i < |rows| && keep(rows[i]) ==> i in idx
  {
    if |rows| == 0 then []
    else
      var n := |rows| - 1;
      var rest := Positions(rows[..n], keep);
      if keep(rows[n]) then rest + [n] else rest
  }

  /** The rows satisfying keep, in document order: jQuery's `.remove()` leaves the other rows where they were. */
  function Filter(rows: seq<Row>, keep: Row -> bool): seq<Row>
  {
    if |rows| == 0 then []
    else
      var n := |rows| - 1;
      var rest := Filter(rows[..n], keep);
      if keep(rows[n]) then rest + [rows[n]] else rest
  }

  /** Filter keeps exactly the rows satisfying keep. */
  lemma {:induction false} FilterMembers(rows: seq<Row>, keep: Row -> bool)
    ensures forall r :: r in Filter(rows, keep) <==> r in rows && keep(r)
  {
    if |rows| > 0 {
      var n := |rows| - 1;
      FilterMembers(rows[..n], keep);
      assert rows == rows[..n] + [rows[n]];
    }
  }

  /** The j-th row Filter keeps is the row at the j-th of the Positions. */
  lemma {:induction false} FilterAt(rows: seq<Row>, keep: Row -> bool)
    ensures |Filter(rows, keep)| == |Positions(rows, keep)|
    ensures forall j :: 0 <= j < |Filter(rows, keep)| ==> Filter(rows, keep)[j] == rows[Positions(rows, keep)[j]]
  {
    if |rows| > 0 {
      var n := |rows| - 1;
      var front := rows[..n];
      FilterAt(front, keep);
      var idx := Positions(front, keep);
      var out := Filter(front, keep);
      var idx' := if keep(rows[n]) then idx + [n] else idx;
      var out' := if keep(rows[n]) then out + [rows[n]] else out;
      assert Positions(rows, keep) == idx' && Filter(rows, keep) == out';
      forall j | 0 <= j < |out'|
        ensures out'[j] == rows[idx'[j]]
      {
        if j < |out| {
          assert out'[j] == out[j] == front[idx[j]];
        }
      }
    }
  }

  /** Every row either stays in the body or is one the Enter key acts on. */
  lemma {:induction false} StaysOrCloses(rows: seq<Row>)
    ensures |Positions(rows, Stays)| + |EditingWithInputs(rows)| == |rows|
  {
    if |rows| > 0 {
      StaysOrCloses(rows[..|rows| - 1]);
    }
  }

  /** A row Enter on a blank table leaves in the body. */
  predicate Stays(r: Row) {
    !Closing(r)
  }

  /** A row Enter on a blank table removes and DataTables shows again at its next draw. */
  predicate Returns(r: Row) {
    Closing(r) && r.source.Some?
  }

  /**
   * The Enter key's removal of the editing rows (line 122): they leave the
   * body and the other rows keep their order; DataTables keeps the ones it
   * knows, together with their data, and shows them again at its next draw.
   */
  function Discard(t: Table): (t': Table)
    requires Valid(t)
    ensures Valid(t')
    ensures t'.store == t.store && t'.columns == t.columns && t'.inForm == t.inForm
    ensures forall r :: r in t'.rows <==> r in t.rows && !Closing(r)
    ensures forall r :: r in t'.detached <==> r in t.detached || (r in t.rows && Closing(r) && r.source.Some?)
    ensures |t'.rows| == |t.rows| - |EditingWithInputs(t.rows)|
    ensures var kept := Positions(t.rows, Stays);
      |t'.rows| == |kept| && forall j :: 0 <= j < |kept| ==> t'.rows[j] == t.rows[kept[j]]
    ensures var back := Positions(t.rows, Returns);
      && |t'.detached| == |t.detached| + |back|
      && t'.detached[..|t.detached|] == t.detached
      && forall j :: 0 <= j < |back| ==> t'.detached[|t.detached| + j] == t.rows[back[j]]
  {
    var kept := Filter(t.rows, Stays);
    var removed := Filter(t.rows, Returns);
    FilterMembers(t.rows, Stays);
    FilterMembers(t.rows, Returns);
    SubsetValid(t, kept, t.detached + removed);
    StaysOrCloses(t.rows);
    FilterAt(t.rows, Stays);
    FilterAt(t.rows, Returns);
    t.(rows := kept, detached := t.detached + removed)
  }

  /**
   * The Enter key handler. With no non-empty input in an editing row, the
   * editing rows leave the body and nothing is saved; otherwise the editing
   * rows are saved, provided the form (if any) validates.
   */
  function EnterCommit(t: Table, key: int, valid: bool): (s: Step)
    requires Valid(t)
    ensures Valid(s.table)
    ensures key != EnterKey ==> s == Unchanged(t)
    ensures key == EnterKey && Blank(t) ==>
      && s.saved.None? && s.focus.None?
      && s.table.store == t.store
      && (forall r :: r in s.table.rows <==> r in t.rows && !Closing(r))
      && (forall r :: r in t.rows && Closing(r) && r.source.Some? ==> r in s.table.detached)
      && s.table == Discard(t)
    ensures key == EnterKey && !Blank(t) && t.inForm && !valid ==> s == Unchanged(t)
    ensures key == EnterKey && !Blank(t) && (!t.inForm || valid) ==>
      s == Save(t, EditingWithInputs(t.rows), valid) && SaveAllowed(t, valid)
    ensures s.saved.Some? ==> key == EnterKey && !Blank(t) && (!t.inForm || valid)
  {
    if key != EnterKey then Unchanged(t)
    else
      var sel := EditingWithInputs(t.rows);
      if Blank(t) then Step(Discard(t), None, None)
      else
        assert |sel| > 0 && AnyEditing(t) && HasInput(t) by {
          var i, k :| 0 <= i < |t.rows| && t.rows[i].editing && 0 <= k < |t.rows[i].cells|
            && t.rows[i].cells[k].Field? && t.rows[i].cells[k].value != "";
          assert Closing(t.rows[i]);
          assert i in sel;
        }
        if AnyEditing(t) && |sel| > 0 && (!t.inForm || valid) then Save(t, sel, valid)
        else Unchanged(t)
  }
}

=== FILE: tables.dfy ===
/**
 * The abstract table the extension works on: the DataTables column settings,
 * the data store (`aoData`, one record per row index), and the rows of the
 * table body as displayed, whose cells hold either rendered text or an input.
 */
module Tables {
  import opened Options
  import opened Js
  import opened Records

  /**
   * A column's settings: its data property (`mData`, a plain property name),
   * `bVisible`, the user's `editable` option, and the `data-editable` attribute
   * of its header cell (absent when None).
   */
  datatype Column = Column(field: string, visible: bool, editable: bool, headerEditable: Option<string>)

  /** A body cell: rendered text, or an input holding a string. */
  datatype Cell = Shown(text: string) | Field(value: string)

  /**
   * A body row: the store index it displays (None for a row the extension
   * prepended itself, unknown to DataTables), one cell per visible column,
   * and whether it carries the class `editing`.
   */
  datatype Row = Row(source: Option<nat>, cells: seq<Cell>, editing: bool)

  /**
   * `rows` is the table body in document order. `detached` holds rows of
   * DataTables that were removed from the body; DataTables still owns their
   * nodes and puts them back at its next draw. `inForm` says whether the table
   * sits inside a form, whose validation is consulted. `outerInput` says
   * whether the header or the footer holds an input of its own, such as a
   * per-column search box: the extension's guards count those too.
   */
  datatype Table = Table(columns: seq<Column>, store: seq<Record>, rows: seq<Row>, detached: seq<Row>, inForm: bool, outerInput: bool)

  /** Column indexes of the visible columns, in column order: body rows and the header show only these. */
  function VisibleColumns(cols: seq<Column>): (vis: seq<nat>)
    ensures |vis| <= |cols|
    ensures forall j :: 0 <= j < |vis| ==> vis[j] < |cols| && cols[vis[j]].visible
    ensures forall a, b :: 0 <= a < b < |vis| ==> vis[a] < vis[b]
    ensures forall i :: 0 <= i < |cols| && cols[i].visible ==> i in vis
  {
    if |cols| == 0 then []
    else
      var rest := VisibleColumns(cols[..|cols| - 1]);
      if cols[|cols| - 1].visible then rest + [|cols| - 1] else rest
  }

  /** The number of cells in a body row, and of cells in the header. */
  function Width(cols: seq<Column>): nat {
    |VisibleColumns(cols)|
  }

  /** The column index DataTables reports for the k-th cell of a row (`cell().index().column`). */
  function ColumnOf(cols: seq<Column>, k: nat): (c: nat)
    requires k < Width(cols)
    ensures c < |cols| && cols[c].visible
  {
    VisibleColumns(cols)[k]
  }

  /** The data property written for the k-th cell of a row. */
  function FieldOf(cols: seq<Column>, k: nat): string
    requires k < Width(cols)
  {
    cols[ColumnOf(cols, k)].field
  }

  /**
   * Whether the k-th cell of a row is editable: the column's `editable` option,
   * or the `data-editable` attribute of the header cell found by taking the
   * column index as a position among the header cells (which are the visible
   * columns only).
   */
  predicate IsEditable(cols: seq<Column>, k: nat)
    requires k < Width(cols)
  {
    var c := ColumnOf(cols, k);
    cols[c].editable || HeaderSaysEditable(cols, c)
  }

  /**
   * Whether the i-th header cell carries a `data-editable` attribute that
   * compares equal to `true` (line 202); the header holds one cell per visible column.
   */
  predicate HeaderSaysEditable(cols: seq<Column>, i: nat) {
    var vis := VisibleColumns(cols);
    i < |vis| && AttrEqualsTrue(cols[vis[i]].headerEditable)
  }

  /** jQuery's `.text()` of a cell: an input contributes no text. */
  function TextOf(c: Cell): string {
    match c
    case Shown(t) => t
    case Field(_) => ""
  }

  /** DataTables' `cell().data()`: the property, or the default content (null) when it is undefined. */
  function CellData(r: Record, field: string): (v: Value)
    ensures v != Undefined
  {
    match Lookup(r, field)
    case Undefined => Null
    case v => v
  }

  function NatText(n: nat): string {
    var d := ['0', '1', '2', '3', '4', '5', '6', '7', '8', '9'][n % 10];
    if n < 10 then [d] else NatText(n / 10) + [d]
  }

  /** The text DataTables displays for a cell value. */
  function Render(v: Value): string {
    match v
    case Undefined => ""
    case Null => ""
    case Bool(b) => if b then "true" else "false"
    case Num(n) => if n < 0 then "-" + NatText(-n) else NatText(n)
    case Str(s) => s
    case Obj => "[object Object]"
  }

  /** The cells DataTables renders for a record. */
  function RenderCells(cols: seq<Column>, r: Record): (cells: seq<Cell>)
    ensures |cells| == Width(cols)
    ensures forall k :: 0 <= k < |cells| ==> cells[k] == Shown(Render(CellData(r, FieldOf(cols, k))))
  {
    seq(Width(cols), k requires 0 <= k < Width(cols) => Shown(Render(CellData(r, FieldOf(cols, k)))))
  }

  predicate RowHasInput(r: Row) {
    exists k :: 0 <= k < |r.cells| && r.cells[k].Field?
  }

  /**
   * Whether the table holds an input anywhere, in its header or footer or in a
   * body row (the guard at line 150, and the gate at line 246).
   */
  predicate HasInput(t: Table) {
    t.outerInput || exists i :: 0 <= i < |t.rows| && RowHasInput(t.rows[i])
  }

  /** Whether some body row is marked editing (the guard of addRow at line 278). */
  predicate AnyEditing(t: Table) {
    exists i :: 0 <= i < |t.rows| && t.rows[i].editing
  }

  predicate RowFits(t: Table, r: Row) {
    |r.cells| == Width(t.columns) && (r.source.Some? ==> r.source.value < |t.store|)
  }

  /**
   * What DataTables and the DOM guarantee: every row has one cell per visible
   * column and displays an existing record, and the rows removed from the body
   * are rows DataTables knows.
   */
  predicate Valid(t: Table) {
    && (forall i :: 0 <= i < |t.rows| ==> RowFits(t, t.rows[i]))
    && (forall i :: 0 <= i < |t.detached| ==> RowFits(t, t.detached[i]) && t.detached[i].source.Some?)
  }

  lemma ReplaceRowValid(t: Table, i: nat, r: Row)
    requires Valid(t) && i < |t.rows| && RowFits(t, r)
    ensures Valid(t.(rows := t.rows[i := r]))
  {
  }

  /** Keeping only rows the table already had (the removed ones all known to DataTables) keeps it valid. */
  lemma SubsetValid(t: Table, rows: seq<Row>, detached: seq<Row>)
    requires Valid(t)
    requires forall r :: r in rows ==> r in t.rows
    requires forall r :: r in detached ==> (r in t.rows || r in t.detached) && r.source.Some?
    ensures Valid(t.(rows := rows, detached := detached))
  {
    forall i | 0 <= i < |rows| ensures RowFits(t, rows[i]) {
      assert rows[i] in rows;
      var j :| 0 <= j < |t.rows| && t.rows[j] == rows[i];
    }
    forall i | 0 <= i < |detached| ensures RowFits(t, detached[i]) {
      assert detached[i] in detached;
      if detached[i] in t.rows {
        var j :| 0 <= j < |t.rows| && t.rows[j] == detached[i];
      } else {
        var j :| 0 <= j < |t.detached| && t.detached[j] == detached[i];
      }
    }
  }
}
